=== FILE: README.md ===
# Detection client and record store, modelled in Dafny

The system is a Tk desktop client (`App_tk.py`) that sends still images, video
frames or live camera frames to a Flask detection server, shows the annotated
result, and saves chosen results as records. A record has an id, a file path,
its detections and free-text notes. The records live in a SQLite `images` table
served by the same Flask app (`Call_API.py`). An older standalone server
(`new_model.py`) serves the same table with slightly different semantics.

This project models three pieces of that logic as pure functions over
immutable datatypes and proves properties of them.

- **Review list** (`Review.dfy`, `Client.dfy`). The client's `captured_images`
  list and cursor `current_image_index` (-1 for "none") are a `Session`. The
  handlers are load, previous, next, thumbnail jump, delete with cursor repair,
  and the notes editor. The enabled state of the four review buttons is derived
  by `update_navigation_buttons`.
- **Acquisition modes and capture** (`Client.dfy`). The flags `camera_running`
  and `video_running` are modelled together with:
  - whether the camera worker is still looping;
  - the last detection result;
  - the capture button;
  - the review buttons;
  - the message line.

  Each handler and each worker iteration is one transition. Frame reads, device
  opens, file dialogs and server replies are inputs. `Step` applies a command
  only when its button is enabled, and `Inv` is the invariant every command
  keeps. For saving notes, `Step` runs the corrected handler `SaveNotes` (see
  Findings). The handler as written, `SaveNotesAsWritten`, keeps `Inv` as
  well.
- **Record store** (`Store.dfy`, `StoreVariant.dfy`, `Detector.dfy`). The table
  is a `map<int, Row>` plus the next AUTOINCREMENT id. The image files are a
  `set<string>`. Each handler is a function from the server state and request
  to a reply (status and body) and a new server state. `Detector.dfy` covers
  the two detection endpoints' request validation, the conversion of raw boxes
  into detections, and the temporary file of the video endpoint.
- **Both sides together** (`Sync.dfy`). After loading, after deleting, and
  after editing notes with the corrected notes handler, the client's list
  equals what `GET /images/` would now return. With the notes handler as
  written it can stop doing so (see Findings). A capture adds exactly one
  record, listed last.

Shared types live in `Api.dfy`. JSON is opaque: a stored column holds either a
string that is not JSON (`Raw`) or the encoding of a value (`Encoded`), so
`json.loads(json.dumps(v)) == v` holds by construction. `Strings.dfy` models
Python's `str.strip()`.

### Behaviour worth knowing

- `select_image` sets no mode flag. It calls the detector once and returns
  before the handler ends, so a chosen image never makes the window busy
  (App_tk.py:288-294, 382-406).
- Showing saved images is not a mode either. The review buttons are enabled
  while a list is shown, and starting the camera, choosing an image or video,
  or reloading the list stay available.
- The capture button is enabled by more than a detected frame.
  - `stop_live_camera` and `stop_video` enable it whether or not a frame was
    ever detected (App_tk.py:246, 338).
  - A successful still image enables it too.
  - `capture_image` itself refuses only when there is no result
    (App_tk.py:461-464).
- A failed camera read ends the worker loop but leaves `camera_running` set
  (App_tk.py:255-258). The camera stays busy until Stop is pressed. A failed
  video read calls `stop_video`, which returns to idle (App_tk.py:348-352).
- Reloading the list when the server has no records disables the review
  buttons but keeps the previous list and cursor in memory
  (App_tk.py:504-512).
- The notes editor rewrites the list entry under the cursor at the time Save
  is pressed, not the entry whose notes were opened (see Findings).
- `update_image_notes` in `Call_API.py` keeps the old notes when the request
  has no `notes` key. The one in `new_model.py` sets them to NULL
  (Call_API.py:308, new_model.py:92).
- `new_model.py` encodes `detections` a second time. The desktop client
  already sends a JSON string, so that server lists a string back, not the
  detections (new_model.py:46).

## Model

| member | source | states |
|---|---|---|
| Api.Dumps | App_tk.py:474 | the encoding of a detection list is a non-empty string that decodes back to the same list |
| Api.DecodeColumn | Call_API.py:204 | a column holding the encoding of a value reads back as that value; a NULL or empty column reads as `[]`; it fails exactly for non-empty text that is not JSON |
| Strings.Strip | App_tk.py:547 | the stripped notes are a slice of the input with only whitespace removed before and after it, and neither end of the result is whitespace |
| Strings.StripIdempotent | App_tk.py:547 | stripping stripped notes changes nothing |
| Strings.StripAllSpace | App_tk.py:547 | notes made only of whitespace strip to the empty string |
| Detector.Trunc | Call_API.py:58 | `int()` of a box coordinate truncates toward zero: within one of the float, never further from zero |
| Detector.Convert | Call_API.py:58-67 | a detection exists exactly when the truncated class is in the table; its name is one of the table's names, its confidence is the box's, and each integer corner is the float corner truncated toward zero (within one of it, never further from zero) |
| Detector.Pairs | Call_API.py:56-57 | boxes are visited result by result and box by box, in order, each with its own result's class table: the first result's boxes come first and the rest of the results follow |
| Detector.ConvertAll | Call_API.py:56-67 | the detections list has one entry per box, in visiting order, each the conversion of that box; it exists exactly when every class is found |
| Detector.CheckUpload | Call_API.py:37-42 | a request passes exactly when it has a `file` part with a non-empty filename; every rejection is a 400 error reply (no part, or empty name) |
| Detector.Annotate | Call_API.py:53-82 | 200 with the annotated image and the collected detections exactly when inference succeeds and every class is found; otherwise 500 |
| Detector.DetectImage | Call_API.py:36-82 | upload checks first, then 400 for bytes that do not decode; after a decode the reply is 200 with the detections in box order exactly when inference succeeds and every class is found, and 500 otherwise |
| Detector.DetectVideo | Call_API.py:96-148 | upload checks, then 400 when the saved video does not open or has no first frame, then the first frame's detections; the temporary file is gone after every 400 and 200 but stays after a 500 |
| Detector.RejectedBeforeDecoding | Call_API.py:37-51 | a request rejected by the upload checks gets the same 400 whatever its bytes would decode to or inference would return |
| Store.Incomplete | Call_API.py:164 | `not file_path or not detections` under Python truthiness; its meaning is stated through Store.SaveImage, where it is exactly the 400 case |
| Store.View | Call_API.py:201-206 | a row renders with its id, path and notes unchanged and its detections decoded; a stored encoding of a value renders as that value; it fails exactly when the column does not decode |
| Store.ScanOrder | Call_API.py:194-195 | a full table scan yields ids of existing rows in strictly ascending order |
| Store.Views | Call_API.py:199-206 | the rows rendered in scan order, one image per id, each its row with `detections` decoded; none when one row does not decode |
| Store.SaveImage | Call_API.py:159-181 | a non-object body is 500; missing or empty `file_path`/`detections` is 400; non-string `detections` fails the insert with 500; no failure changes anything; otherwise exactly one row with the next id, that path, that text and NULL notes is added and its id returned |
| Store.GetImages | Call_API.py:191-214 | read-only; 200 with one image per row in scan order, each the decoded row, exactly when every row decodes; otherwise 500 |
| Store.ListingFaithful | Call_API.py:194-206 | a successful listing has every row exactly once, ids ascending, path and notes unchanged and detections decoded with `[]` for an empty column |
| Store.GetImageById | Call_API.py:225-248 | read-only; 404 for an unknown id, otherwise that row's fields with detections decoded (500 when they do not decode) |
| Store.GetByIdAgreesWithListing | Call_API.py:228-245 | fetching a listed image by its id returns exactly the image the listing holds |
| Store.DeleteImage | Call_API.py:261-284 | 404 and no change for an unknown id; otherwise exactly that row goes, its file is removed from disk if present, other rows and the id counter are untouched |
| Store.UpdateImageNotes | Call_API.py:296-326 | 404 before the body is read; a non-object body is 500 with no change; otherwise notes become the request's value or stay when the key is absent, only that row changes, and the reply is the row with the new notes |
| Store.InsertScansLast | Call_API.py:169-172 | after a successful save the scan is the previous scan followed by the new id |
| Store.DeleteScansWithout | Call_API.py:277 | after deleting the row at scan position `p` the scan is the previous one without position `p` |
| StoreVariant.SaveImage | new_model.py:36-60 | the same 400 check; any accepted `detections` is stored as its `json.dumps` encoding under the next id with NULL notes |
| StoreVariant.GetImages | new_model.py:64-85 | the same listing as the newer server: scan order, decoded detections, `[]` for an empty column |
| StoreVariant.UpdateImageNotes | new_model.py:89-121 | a non-object body is 500 even for an unknown id; then 404; otherwise notes become `data.get("notes")`, NULL when absent, and nothing else changes |
| StoreVariant.DeleteImage | new_model.py:125-142 | 404 and no change for an unknown id; otherwise exactly that row goes and the disk is untouched |
| StoreVariant.DeleteScansLikeMain | new_model.py:125-140 | deleting a listed image gives the same reply and the same table as the newer server, and the listing afterwards is the old one without that id; only the image file stays on disk |
| StoreVariant.AbsentNotesDiffer | new_model.py:91-92 | an update without `notes` keeps the stored notes on the newer server and clears them on the older one |
| StoreVariant.ClientPayloadEncodedTwice | new_model.py:45-53 | the client's already-encoded detections list back as the list from the newer server but as a string from the older one |
| Review.Load | App_tk.py:515-516 | a non-empty listing becomes the list in fetch order with the cursor on the first image; an empty one leaves list and cursor as they were |
| Review.ShowPrev | App_tk.py:685-689 | the cursor moves back one only when above 0 and never goes below 0; the list is untouched |
| Review.ShowNext | App_tk.py:691-695 | the cursor moves forward one only when below the last position and never passes it; the list is untouched |
| Review.SelectThumbnail | App_tk.py:649-652 | the cursor becomes the thumbnail's position; the list is untouched |
| Review.RemoveCurrent | App_tk.py:583-598 | exactly the image at the cursor leaves the list (as a multiset too), the others keep their order, and the cursor stays, is clamped to the new last position, or becomes -1 for an empty list |
| Review.SetNotes | App_tk.py:553-558 | only the notes of one entry change; the cursor, the other entries and the button states are as before |
| Review.Flags | App_tk.py:697-701 | previous is enabled exactly when pressing it moves the cursor, next likewise; on a valid list delete and notes are enabled exactly when the cursor is on an image |
| Review.PrevNextInverse | App_tk.py:685-695 | next then previous, or previous then next, returns to the same cursor whenever the first move is enabled |
| Review.SetNotesIdempotent | App_tk.py:553-558 | writing the same notes twice equals writing them once |
| Review.RemoveLast | App_tk.py:597-598 | deleting the last image moves the cursor one back; deleting the only image returns to the empty list with cursor -1 |
| Client.ReadDetectReply | App_tk.py:262-280 | a 200 with image data is a result; any other status is an API error; no reply or a 200 without image data is a failed call |
| Client.AfterFrame | App_tk.py:262-280 | capture is enabled exactly after a result, which replaces the current one; errors keep the old result and touch nothing but the message and capture button |
| Client.StartLiveCamera | App_tk.py:208-232 | a no-op while a mode runs; a camera that does not open only sets the message; otherwise the camera runs and the review buttons are off |
| Client.StopLiveCamera | App_tk.py:234-250 | a no-op unless the camera flag is set; otherwise idle again with capture enabled, results or not |
| Client.CameraFrame | App_tk.py:252-283 | after the loop ended nothing happens; a failed read ends the loop and leaves `camera_running` set; otherwise the reply is applied and the loop continues |
| Client.ProcessFile | App_tk.py:382-406 | a result is shown and disables the review buttons; errors only disable capture and set the message |
| Client.SelectImage | App_tk.py:288-294 | a no-op while a mode runs or for a cancelled dialog; otherwise one synchronous detection with no flag set |
| Client.PlayVideo | App_tk.py:304-325 | a file that does not open only sets the message; otherwise the video runs and the review buttons are off |
| Client.SelectVideo | App_tk.py:296-302 | the video runs afterwards exactly when it already ran, or the window was idle, a file was chosen and it opened; the camera flag, list, result and capture button are untouched |
| Client.StopVideo | App_tk.py:327-343 | a no-op unless the video flag is set; otherwise idle again with capture enabled, results or not |
| Client.VideoFrame | App_tk.py:345-377 | a failed read stops the video; otherwise the reply is applied and the video goes on whatever it was |
| Client.HasShot | App_tk.py:461 | there is a current result with non-empty image data; its meaning is stated through Client.CaptureImage, which refuses exactly when it is false |
| Client.CaptureImage | App_tk.py:460-491 | without a result it refuses; a local save failure sends nothing; success is reported exactly for a 200 reply carrying an id, with that id and the saved path; only the message changes |
| Client.ViewCaptured | App_tk.py:493-530 | a no-op while a mode runs; errors only set the message; an empty listing turns the review buttons off and keeps the old list; otherwise the listing becomes the list with the cursor at 0 and buttons that match it |
| Client.ShowPrev | App_tk.py:685-689 | when the cursor moves back the buttons follow it; otherwise nothing changes |
| Client.ShowNext | App_tk.py:691-695 | when the cursor moves forward the buttons follow it; otherwise nothing changes |
| Client.SelectThumbnail | App_tk.py:649-652 | the cursor jumps to the thumbnail, the buttons follow, and that image is shown |
| Client.NotesDialog | App_tk.py:532-535 | the dialog opens exactly when the cursor is on an image and remembers that image's id, which on a list with distinct ids is found at the cursor and nowhere before it |
| Client.DeleteImage | App_tk.py:573-611 | nothing when the cursor is off the list; on 200 exactly the cursor's image goes and the buttons follow; a failed call or another status leaves list, cursor and buttons as they were |
| Client.SaveNotesAsWritten | App_tk.py:546-569 | on 200 the entry under the cursor at save time gets the dialog's id and the stripped notes; a 200 with the cursor off the list (the IndexError) reports a failed call; in every other case the list is unchanged |
| Client.SaveNotes | App_tk.py:546-569 | on 200 the entry with the dialog's id gets the stripped notes and no id, cursor or other entry changes; otherwise the list is unchanged |
| Client.Step | App_tk.py:106-150 | a command whose button is disabled changes nothing (capture, previous, next, delete, thumbnails); mode entries change nothing while busy; only camera commands touch the camera flag and only video commands the video flag |
| Client.InitInv | App_tk.py:171-179 | the window starts idle, with no result and an empty list |
| Client.StepInv | App_tk.py:208-343 | every command keeps the state consistent: at most one mode, a cursor in range or -1, review buttons all off or matching the list, and all off while a mode runs |
| Client.SaveNotesAsWrittenInv | App_tk.py:553-558 | the notes handler as written also keeps the state consistent |
| Client.ModeEntryBlockedWhileBusy | App_tk.py:209-210 | starting the camera, choosing an image or video, or opening the review list changes nothing while a mode runs (also App_tk.py:289, 297, 494) |
| Client.OpenFailureStaysIdle | App_tk.py:212-216 | a camera or video file that does not open leaves both flags clear (also App_tk.py:305-309) |
| Client.CameraReadFailureStaysBusy | App_tk.py:253-258 | after a failed camera read the loop is over, further ticks do nothing, and every mode entry is refused until Stop |
| Client.BadFrameKeepsMode | App_tk.py:273-280 | a rejected or failed frame keeps the camera or video running and disables capture |
| Client.GoodFrameEnablesCapture | App_tk.py:264-272 | the first good frame enables capture and capture then goes ahead instead of refusing |
| Client.StopEnablesEmptyCapture | App_tk.py:244-246 | stopping a camera that never produced a result enables the capture button, and pressing it only reports that there is nothing to capture |
| Client.VideoEndStops | App_tk.py:348-352 | the end of a video returns to idle with capture enabled and the stop message shown |
| Client.SaveNotesAgreeWhenCursorStays | App_tk.py:553-558 | with the cursor still on the dialog's image and distinct ids, the handler as written and the corrected one agree |
| Client.SaveNotesIdempotent | App_tk.py:546-558 | saving the same notes twice leaves the list as saving once |
| Sync.CaptureRequest | App_tk.py:474-480 | the capture body is complete for a non-empty path and its detections are a string that decodes to the current detections |
| Sync.NotesRequest | App_tk.py:547-550 | the notes sent are a slice of the dialog text with only whitespace cut from either side; they neither start nor end with whitespace, stripping them again changes nothing, and whitespace-only text sends empty notes, not NULL |
| Sync.ListingDistinct | Call_API.py:194-206 | a server listing never repeats an id |
| Sync.LoadMirrors | App_tk.py:498-524 | opening the review list on a non-empty server makes the list the server's listing with distinct ids and the cursor at 0 |
| Sync.DeleteMirrors | App_tk.py:577-598 | deleting the image under the cursor succeeds on the server and the client's list afterwards is the server's new listing |
| Sync.SaveNotesMirrors | App_tk.py:546-558 | with the corrected handler, saving notes succeeds for a listed id and the client's list is the server's new listing; an unknown id is 404 and changes neither side |
| Sync.CaptureRoundTrip | App_tk.py:466-485 | a capture is saved under the next id, reported with that id, and the listing becomes the old one plus that image with the saved path, the current detections and no notes |
| Sync.SaveNotesAsWrittenBreaksMirror | App_tk.py:553-558 | with the handler as written, saving after the cursor moved leaves two entries with the same id, so the list matches no server listing |
| Sync.SaveNotesAfterNextExample | App_tk.py:535-558 | images with ids 1 and 2 listed, dialog opened on the first, Next pressed, Save with "hi": as written the second entry gets id 1 and the notes; corrected, image 1 gets the notes and image 2 is untouched |
| Sync.ExampleDialogOpensOnFirst | App_tk.py:532-535 | in that example the notes dialog opens for image 1, the image under the cursor |

## Left out

- Detector.Convert: box corners and confidences are finite reals. A NaN or
  infinite corner is not represented; in the program `int()` raises on it
  and the detection endpoints answer 500 (Call_API.py:58, 126).
- Threads: each worker iteration is one atomic step. An iteration that is in
  flight while Stop is pressed can still set the capture button or the result
  afterwards, and that interleaving is not modelled. The same goes for
  `root.update()` and `cv2.waitKey` pacing.
- Presentation: canvas sizing, thumbnails, the text of messages (each message
  is a tag naming its cause), and `response.text` inside error messages. The
  loading errors in `show_captured_image` and `display_thumbnails` only change
  the message line, and they are not modelled.
- YOLO inference, OpenCV drawing and encoding, and base64/PIL decoding are
  inputs. Their outcomes (decodes, opens, read, the inference results, the
  encoded image) are parameters.
- HTTP transport: a request that raises is a `None` reply.
- JSON internals: `Json` has only null, string and detection-list values.
  Bodies with other field types (numbers or objects for `file_path`,
  `detections` or `notes`) are not represented.
- JSON text: a stored string is either `Raw` text that is not JSON or the
  `Encoded` form of a value, and only `Encoded` columns decode. A column
  holding valid JSON text as `Raw` (such as `Raw("[]")`) is outside the model;
  `Api.DecodeColumn` would report it as failing where `json.loads` succeeds.
- SQLite: connection failures, and 500s other than the ones named in the
  contracts, are not modelled. The DDL in `init_db.py` and the script
  `test_db.py` are not part of this model.
- `os.remove` and `file.save` failures: the disk is a set of names and removal
  always succeeds. The client's own copy of a captured image on its disk is not
  tracked.
- The `uuid` file names are parameters (`temp` in `Detector.DetectVideo`,
  `path` in `Client.CaptureImage`).
- The notes dialog's window lifetime: it stays open after a failed save and
  several can be open at once. `Client.Step` accepts a save for any id at any
  time, which covers this.
- Client.Step: a notes save runs the corrected `Client.SaveNotes`, not the
  handler as written, so `Client.StepInv` is about the corrected window. The
  handler as written is modelled by `Client.SaveNotesAsWritten`, and
  `Client.SaveNotesAsWrittenInv` shows it keeps the same invariant.
- `Client.ShowPrev`, `Client.ShowNext`, `Client.SelectThumbnail` and
  `Client.ViewCaptured` state the shown image only as a message tag, not the
  rendered picture.

## Findings

| source | as written | input that shows it | evidently intended | confidence | as-written member | corrected member |
|---|---|---|---|---|---|---|
| App_tk.py:553-558 | on a 200 reply, `save_notes` overwrites `captured_images[current_image_index]`, the entry under the cursor when Save is pressed, and gives it the `image_id` captured when the non-modal dialog opened | list `[(1, "a.jpg", [], None), (2, "b.jpg", [], None)]`, cursor 0, open the notes dialog (id 1), press Next, type `hi`, press Save: the server updates record 1 but the list becomes `[(1, "a.jpg", [], None), (1, "b.jpg", [], "hi")]` | the entry whose id is the dialog's id gets the notes, so the list still equals the server's listing | not executed | Client.SaveNotesAsWritten | Client.SaveNotes |

=== FILE: Api.dfy ===
/** Values exchanged between the desktop client and the detection and record
    server: detections, the JSON they travel in, stored images and HTTP replies.
 */
module Api {

  datatype Option<+T> = None | Some(value: T)

  /** Pixel box of one detection, `[x1, y1, x2, y2]`, in integer coordinates. */
  datatype Box = Box(x1: int, y1: int, x2: int, y2: int)

  /** One detected object: its class label (`name`), detector confidence and box. */
  datatype Detection = Detection(name: string, confidence: real, box: Box)

  /** The JSON values that travel in a `detections` field. The servers would
      accept and store other shapes too (a number such as `42` is truthy and
      is listed back as `42`); those bodies are not represented. */
  datatype Json =
    | JNull
    | JStr(text: Text)
    | JList(items: seq<Detection>)

  /** A string as `json.loads` sees it: either text that is not JSON at all
      (the empty string among them), or the output of `json.dumps` on a value.
      JSON encoding itself is opaque: only its round trip is modelled. */
  datatype Text =
    | Raw(chars: string)
    | Encoded(value: Json)

  /** Python truthiness of a string: only the empty string is false. */
  predicate TextTruthy(t: Text) {
    !(t.Raw? && t.chars == [])
  }

  /** Python truthiness of a JSON value: null, "" and [] are false. */
  predicate JsonTruthy(v: Json) {
    match v
    case JNull => false
    case JStr(t) => TextTruthy(t)
    case JList(ds) => |ds| > 0
  }

  /** `json.loads`: fails (the caller then raises) on text that is not JSON. */
  function Loads(t: Text): (r: Option<Json>)
    ensures r.Some? <==> t.Encoded?
  {
    match t
    case Raw(_) => None
    case Encoded(v) => Some(v)
  }

  /** `json.dumps`: never yields the empty string, and `Loads` undoes it. */
  function Dumps(v: Json): (t: Text)
    ensures TextTruthy(t)
    ensures Loads(t) == Some(v)
  {
    Encoded(v)
  }

  /** The `detections` value a handler returns for a stored column: `[]` when
      the column is NULL or empty, the decoded JSON otherwise; `None` when the
      stored text is not JSON, in which case the handler's `json.loads` raises.
      A column is read as JSON exactly when it is `Encoded`: text that happens
      to be valid JSON but is held as `Raw` (say `Raw("[]")`) is outside the
      model, and reads here as failing where `json.loads` would succeed. */
  function DecodeColumn(c: Option<Text>): (r: Option<Json>)
    ensures (c.None? || !TextTruthy(c.value)) ==> r == Some(JList([]))
    ensures c.Some? && TextTruthy(c.value) ==> r == Loads(c.value)
    ensures forall v :: c == Some(Dumps(v)) ==> r == Some(v)
    ensures r.None? <==> c.Some? && c.value.Raw? && c.value.chars != []
  {
    if c.None? || !TextTruthy(c.value) then Some(JList([])) else Loads(c.value)
  }

  /** One stored image as the server returns it and the client keeps it:
      `(id, file_path, detections, notes)`. */
  datatype Image = Image(id: int, filePath: string, detections: Json, notes: Option<string>)

  /** The `{"error": ...}` replies, by cause. */
  datatype Error =
    | NoFilePart
    | EmptyFilename
    | UnreadableImage
    | VideoNotOpened
    | FrameNotRead
    | MissingFields
    | NotFound
    | Internal

  /** The JSON body of a reply, by endpoint. */
  datatype Body =
    | Failure(error: Error)
    | Detected(imageData: string, detections: seq<Detection>)
    | SavedId(imageId: int)
    | ImageList(images: seq<Image>)
    | OneImage(image: Image)
    | Deleted(id: int)
    | Updated(image: Image)

  datatype Reply = Reply(status: int, body: Body)

  const StatusOk := 200
  const StatusBadRequest := 400
  const StatusNotFound := 404
  const StatusInternal := 500

  /** The reply every handler's `except Exception` clause produces. */
  const InternalError := Reply(StatusInternal, Failure(Internal))
}

=== FILE: Client.dfy ===
/** The desktop client: the acquisition flags `camera_running` and
    `video_running`, the last detection result and the capture button, the
    review list with its navigation buttons, and the message line. Every
    handler is a pure transition; frame reads, detector replies, file
    dialogs and server replies arrive as parameters.
 */
module Client {
  import opened Api
  import Review
  import Strings

  /** The last successful detection: `current_image_data` (the annotated
      image, base64) and `current_detections`. */
  datatype Shot = Shot(imageData: string, detections: seq<Detection>)

  /** What the message line says, by cause. */
  datatype Message =
    | Blank
    | CameraOpenFailed
    | CameraReadFailed
    | CameraStopped
    | VideoOpenFailed
    | VideoEnded
    | VideoStopped
    | Results(detections: seq<Detection>)
    | ApiError(status: int)
    | CallFailed
    | NothingToCapture
    | SaveFailed
    | SavedAs(imageId: int, path: string)
    | NoSavedImages
    | ShowingSaved(image: Image)
    | DeletedImage(id: int)
    | NotesUpdated(id: int, notes: string)

  /** The client state. `cameraLoop` records whether the camera worker is
      still looping: a failed frame read ends the loop but leaves
      `cameraRunning` set. */
  datatype App = App(
    cameraRunning: bool,
    cameraLoop: bool,
    videoRunning: bool,
    shot: Option<Shot>,
    captureEnabled: bool,
    review: Review.Session,
    nav: Review.NavFlags,
    message: Message)

  const Init := App(false, false, false, None, false, Review.Initial, Review.AllDisabled, Blank)

  /** The guard of every mode-entry command. */
  predicate Busy(a: App) {
    a.cameraRunning || a.videoRunning
  }

  /** How the client reads a detection reply. */
  datatype FrameOutcome = Shown(shot: Shot) | Rejected(status: int) | CallError

  /** Status 200 carries the annotated image and detections; any other
      status is an API error; no reply (the request raised) or a 200 body
      without `image_data` (the key lookup raises) is a failed call. */
  function ReadDetectReply(reply: Option<Reply>): (f: FrameOutcome)
    ensures f.Shown? <==> reply.Some? && reply.value.status == StatusOk && reply.value.body.Detected?
    ensures f.Rejected? <==> reply.Some? && reply.value.status != StatusOk
    ensures f.Shown? ==> f.shot == Shot(reply.value.body.imageData, reply.value.body.detections)
    ensures f.Rejected? ==> f.status == reply.value.status
  {
    match reply
    case None => CallError
    case Some(r) =>
      if r.status != StatusOk then Rejected(r.status)
      else if r.body.Detected? then Shown(Shot(r.body.imageData, r.body.detections))
      else CallError
  }

  /** The per-frame branch shared by the camera and video loops: a success
      becomes the current result and enables capture; a rejection or a
      failed call disables capture and keeps the previous result. */
  function AfterFrame(a: App, reply: Option<Reply>): (r: App)
    ensures r.captureEnabled <==> ReadDetectReply(reply).Shown?
    ensures ReadDetectReply(reply).Shown? ==> r.shot == Some(ReadDetectReply(reply).shot)
    ensures !ReadDetectReply(reply).Shown? ==> r.shot == a.shot
    ensures ReadDetectReply(reply).Rejected? ==> r.message == ApiError(reply.value.status)
    ensures r.(shot := a.shot, captureEnabled := a.captureEnabled, message := a.message) == a
  {
    match ReadDetectReply(reply)
    case Shown(s) => a.(shot := Some(s), captureEnabled := true, message := Results(s.detections))
    case Rejected(c) => a.(captureEnabled := false, message := ApiError(c))
    case CallError => a.(captureEnabled := false, message := CallFailed)
  }

  /** `start_live_camera`: a no-op while any mode runs; a device that does
      not open only sets the message; otherwise the camera mode starts and
      the review buttons are disabled. */
  function StartLiveCamera(a: App, opens: bool): (r: App)
    ensures Busy(a) ==> r == a
    ensures !Busy(a) && !opens ==> r == a.(message := CameraOpenFailed)
    ensures !Busy(a) && opens ==> r.cameraRunning && r.cameraLoop && !r.videoRunning && r.nav == Review.AllDisabled
    ensures r.review == a.review && r.shot == a.shot && r.captureEnabled == a.captureEnabled
  {
    if Busy(a) then a
    else if !opens then a.(message := CameraOpenFailed)
    else a.(cameraRunning := true, cameraLoop := true, nav := Review.AllDisabled)
  }

  /** `stop_live_camera`: a no-op unless the camera flag is set; otherwise
      the flag clears, the loop ends, and capture is enabled whether or not
      a result exists. */
  function StopLiveCamera(a: App): (r: App)
    ensures !a.cameraRunning ==> r == a
    ensures a.cameraRunning ==> !r.cameraRunning && !r.cameraLoop && r.captureEnabled && r.message == CameraStopped
    ensures r.videoRunning == a.videoRunning && r.shot == a.shot && r.review == a.review && r.nav == a.nav
  {
    if !a.cameraRunning then a
    else a.(cameraRunning := false, cameraLoop := false, captureEnabled := true, message := CameraStopped)
  }

  /** One iteration of `process_camera`. Nothing happens once the loop has
      ended. A failed read ends the loop but leaves `cameraRunning` set, so
      the mode stays busy until stopped; otherwise the frame's reply is
      applied and the loop goes on. */
  function CameraFrame(a: App, read: bool, reply: Option<Reply>): (r: App)
    ensures !(a.cameraRunning && a.cameraLoop) ==> r == a
    ensures a.cameraRunning && a.cameraLoop && !read ==>
              r == a.(cameraLoop := false, message := CameraReadFailed)
    ensures a.cameraRunning && a.cameraLoop && read ==> r == AfterFrame(a, reply) && r.cameraRunning && r.cameraLoop
    ensures r.cameraRunning == a.cameraRunning && r.videoRunning == a.videoRunning
  {
    if !(a.cameraRunning && a.cameraLoop) then a
    else if !read then a.(cameraLoop := false, message := CameraReadFailed)
    else AfterFrame(a, reply)
  }

  /** `process_file` for a chosen image: one detection call; a success also
      disables the review buttons. */
  function ProcessFile(a: App, reply: Option<Reply>): (r: App)
    ensures r.captureEnabled <==> ReadDetectReply(reply).Shown?
    ensures ReadDetectReply(reply).Shown? ==> r == AfterFrame(a, reply).(nav := Review.AllDisabled)
    ensures !ReadDetectReply(reply).Shown? ==> r == AfterFrame(a, reply)
  {
    var b := AfterFrame(a, reply);
    if ReadDetectReply(reply).Shown? then b.(nav := Review.AllDisabled) else b
  }

  /** `select_image`: a no-op while a mode runs or when the dialog is
      cancelled (empty path); otherwise the file is processed once. No mode
      flag is set: the call completes before the handler returns. */
  function SelectImage(a: App, path: string, reply: Option<Reply>): (r: App)
    ensures Busy(a) || path == [] ==> r == a
    ensures !Busy(a) && path != [] ==> r == ProcessFile(a, reply)
    ensures r.cameraRunning == a.cameraRunning && r.videoRunning == a.videoRunning
  {
    if Busy(a) || path == [] then a else ProcessFile(a, reply)
  }

  /** `play_video`: a file that does not open only sets the message;
      otherwise the video mode starts and the review buttons are disabled. */
  function PlayVideo(a: App, opens: bool): (r: App)
    ensures !opens ==> r == a.(message := VideoOpenFailed)
    ensures opens ==> r.videoRunning && r.nav == Review.AllDisabled
    ensures r.cameraRunning == a.cameraRunning && r.review == a.review && r.shot == a.shot
  {
    if !opens then a.(message := VideoOpenFailed)
    else a.(videoRunning := true, nav := Review.AllDisabled)
  }

  /** `select_video`: a no-op while a mode runs or when the dialog is
      cancelled; otherwise the chosen file is played. */
  function SelectVideo(a: App, path: string, opens: bool): (r: App)
    ensures Busy(a) || path == [] ==> r == a
    ensures !Busy(a) && path != [] ==> r == PlayVideo(a, opens)
    ensures r.videoRunning <==> a.videoRunning || (!Busy(a) && path != [] && opens)
    ensures r.cameraRunning == a.cameraRunning && r.review == a.review
    ensures r.shot == a.shot && r.captureEnabled == a.captureEnabled
  {
    if Busy(a) || path == [] then a else PlayVideo(a, opens)
  }

  /** `stop_video`: a no-op unless the video flag is set; otherwise the flag
      clears and capture is enabled whether or not a result exists. */
  function StopVideo(a: App): (r: App)
    ensures !a.videoRunning ==> r == a
    ensures a.videoRunning ==> !r.videoRunning && r.captureEnabled && r.message == VideoStopped
    ensures r.cameraRunning == a.cameraRunning && r.shot == a.shot && r.review == a.review && r.nav == a.nav
  {
    if !a.videoRunning then a
    else a.(videoRunning := false, captureEnabled := true, message := VideoStopped)
  }

  /** One iteration of `process_video`. A failed read (end of file or a
      read error) stops the video, whose own message then replaces the
      end-of-video one; otherwise the frame's reply is applied and the video
      keeps playing, whatever the reply was. */
  function VideoFrame(a: App, read: bool, reply: Option<Reply>): (r: App)
    ensures !a.videoRunning ==> r == a
    ensures a.videoRunning && !read ==> r == StopVideo(a) && !r.videoRunning
    ensures a.videoRunning && read ==> r == AfterFrame(a, reply) && r.videoRunning
  {
    if !a.videoRunning then a
    else if !read then StopVideo(a.(message := VideoEnded))
    else AfterFrame(a, reply)
  }

  /** `not self.current_image_data` is false: there is a non-empty result. */
  predicate HasShot(a: App) {
    a.shot.Some? && a.shot.value.imageData != []
  }

  /** `capture_image`, the client side. Without a current result it only
      says so. Otherwise the annotated image is written to `path` (`saved`
      is false when decoding or writing fails, and then no request is
      sent) and the server's reply to the save request is reported. Only
      the message changes. */
  function CaptureImage(a: App, path: string, saved: bool, reply: Option<Reply>): (r: App)
    ensures !HasShot(a) ==> r == a.(message := NothingToCapture)
    ensures HasShot(a) && !saved ==> r == a.(message := SaveFailed)
    ensures r.message.SavedAs? <==>
              HasShot(a) && saved && reply.Some? && reply.value.status == StatusOk && reply.value.body.SavedId?
    ensures r.message.SavedAs? ==> r.message == SavedAs(reply.value.body.imageId, path)
    ensures r == a.(message := r.message)
  {
    if !HasShot(a) then a.(message := NothingToCapture)
    else if !saved then a.(message := SaveFailed)
    else
      match reply
      case None => a.(message := SaveFailed)
      case Some(rep) =>
        if rep.status != StatusOk then a.(message := ApiError(rep.status))
        else if rep.body.SavedId? then a.(message := SavedAs(rep.body.imageId, path))
        else a.(message := SaveFailed)
  }

  /** The message for the image under the cursor, if the cursor is on one. */
  function Showing(a: App, s: Review.Session): Message {
    if 0 <= s.index < |s.images| then ShowingSaved(s.images[s.index]) else a.message
  }

  /** `view_captured_images`: a no-op while a mode runs. A failed call or a
      non-200 reply only sets the message. An empty listing disables the
      review buttons but keeps the old list. A non-empty listing becomes the
      list, in fetch order, with the cursor on its first image. */
  function ViewCaptured(a: App, reply: Option<Reply>): (r: App)
    ensures Busy(a) ==> r == a
    ensures !Busy(a) && reply.None? ==> r == a.(message := CallFailed)
    ensures !Busy(a) && reply.Some? && reply.value.status != StatusOk ==> r == a.(message := ApiError(reply.value.status))
    ensures !Busy(a) && reply.Some? && reply.value.status == StatusOk ==>
              var imgs := if reply.value.body.ImageList? then reply.value.body.images else [];
              && (|imgs| == 0 ==> r == a.(nav := Review.AllDisabled, message := NoSavedImages))
              && (|imgs| > 0 ==> r.review == Review.Session(imgs, 0) && r.nav == Review.Flags(r.review)
                                 && r.message == ShowingSaved(imgs[0]))
    ensures r.cameraRunning == a.cameraRunning && r.videoRunning == a.videoRunning && r.shot == a.shot
  {
    if Busy(a) then a
    else
      match reply
      case None => a.(message := CallFailed)
      case Some(rep) =>
        if rep.status != StatusOk then a.(message := ApiError(rep.status))
        else
          var imgs := if rep.body.ImageList? then rep.body.images else [];
          if |imgs| == 0 then a.(nav := Review.AllDisabled, message := NoSavedImages)
          else
            var s := Review.Load(a.review, imgs);
            a.(review := s, nav := Review.Flags(s), message := Showing(a, s))
  }

  /** `show_prev_image`: when the cursor moves, the buttons follow it. */
  function ShowPrev(a: App): (r: App)
    ensures a.review.index > 0 ==> r.review == Review.ShowPrev(a.review) && r.nav == Review.Flags(r.review)
    ensures a.review.index <= 0 ==> r == a
    ensures r.cameraRunning == a.cameraRunning && r.videoRunning == a.videoRunning
  {
    if a.review.index > 0 then
      var s := Review.ShowPrev(a.review);
      a.(review := s, nav := Review.Flags(s), message := Showing(a, s))
    else a
  }

  /** `show_next_image`: when the cursor moves, the buttons follow it. */
  function ShowNext(a: App): (r: App)
    ensures a.review.index < |a.review.images| - 1 ==> r.review == Review.ShowNext(a.review) && r.nav == Review.Flags(r.review)
    ensures a.review.index >= |a.review.images| - 1 ==> r == a
    ensures r.cameraRunning == a.cameraRunning && r.videoRunning == a.videoRunning
  {
    if a.review.index < |a.review.images| - 1 then
      var s := Review.ShowNext(a.review);
      a.(review := s, nav := Review.Flags(s), message := Showing(a, s))
    else a
  }

  /** `select_thumbnail`: jump to a listed image. */
  function SelectThumbnail(a: App, i: int): (r: App)
    requires 0 <= i < |a.review.images|
    ensures r.review == Review.SelectThumbnail(a.review, i) && r.nav == Review.Flags(r.review)
    ensures r.message == ShowingSaved(a.review.images[i])
  {
    var s := Review.SelectThumbnail(a.review, i);
    a.(review := s, nav := Review.Flags(s), message := Showing(a, s))
  }

  /** `update_notes`: the notes dialog opens only for an image under the
      cursor; it remembers that image's id. */
  function NotesDialog(a: App): (id: Option<int>)
    ensures id.Some? <==> 0 <= a.review.index < |a.review.images|
    ensures id.Some? ==> id.value == a.review.images[a.review.index].id
    ensures id.Some? && Review.DistinctIds(a.review.images) ==>
              Review.PositionOf(a.review.images, id.value) == Some(a.review.index)
  {
    if 0 <= a.review.index < |a.review.images| then Some(a.review.images[a.review.index].id) else None
  }

  /** `delete_image`: nothing when the cursor is off the list. On a 200
      reply exactly the image at the cursor leaves the list and the cursor is
      repaired; an emptied list disables the review buttons. A failed call or
      another status changes only the message. */
  function DeleteImage(a: App, reply: Option<Reply>): (r: App)
    ensures !(0 <= a.review.index < |a.review.images|) ==> r == a
    ensures 0 <= a.review.index < |a.review.images| && !(reply.Some? && reply.value.status == StatusOk) ==>
              r.review == a.review && r.nav == a.nav
    ensures 0 <= a.review.index < |a.review.images| && reply.Some? && reply.value.status == StatusOk ==>
              && r.review == Review.RemoveCurrent(a.review)
              && r.nav == Review.Flags(r.review)
    ensures r.cameraRunning == a.cameraRunning && r.videoRunning == a.videoRunning && r.shot == a.shot
  {
    if !(0 <= a.review.index < |a.review.images|) then a
    else
      var id := a.review.images[a.review.index].id;
      match reply
      case None => a.(message := CallFailed)
      case Some(rep) =>
        if rep.status != StatusOk then a.(message := ApiError(rep.status))
        else
          var s := Review.RemoveCurrent(a.review);
          if |s.images| == 0 then a.(review := s, nav := Review.AllDisabled, message := NoSavedImages)
          else a.(review := s, nav := Review.Flags(s), message := DeletedImage(id))
  }

  /** Python's indexing of a list of length `n` by `i`, when in range. */
  function PyIndex(i: int, n: nat): int {
    if i < 0 then i + n else i
  }

  /** `save_notes` as written. The dialog captured `imageId` when it opened,
      but the list entry rewritten on success is the one under the cursor
      when Save is pressed, and it receives `imageId` as its id. The dialog
      does not block the main window, so the cursor may have moved or the
      list shrunk in between. An index Python rejects raises inside the
      handler's `try`, which reports a failed call. */
  function SaveNotesAsWritten(a: App, imageId: int, input: string, reply: Option<Reply>): (r: App)
    ensures !(reply.Some? && reply.value.status == StatusOk) ==> r.review == a.review
    ensures reply.Some? && reply.value.status == StatusOk && 0 <= a.review.index < |a.review.images| ==>
              var i := a.review.index;
              && r.review.index == i
              && r.review.images == a.review.images[i := a.review.images[i].(id := imageId, notes := Some(Strings.Strip(input)))]
    ensures reply.Some? && reply.value.status == StatusOk &&
            !(0 <= PyIndex(a.review.index, |a.review.images|) < |a.review.images|) ==>
              r.review == a.review && r.message == CallFailed
    ensures r.nav == a.nav && r.cameraRunning == a.cameraRunning && r.videoRunning == a.videoRunning
  {
    var notes := Strings.Strip(input);
    match reply
    case None => a.(message := CallFailed)
    case Some(rep) =>
      if rep.status != StatusOk then a.(message := ApiError(rep.status))
      else
        var n := |a.review.images|;
        var p := PyIndex(a.review.index, n);
        if 0 <= p < n then
          var cur := a.review.images[p];
          var images := a.review.images[p := Image(imageId, cur.filePath, cur.detections, Some(notes))];
          a.(review := a.review.(images := images), message := NotesUpdated(imageId, notes))
        else a.(message := CallFailed)
  }

  /** `save_notes` as evidently intended: on success the list entry with the
      dialog's `imageId` gets the stripped notes; ids, paths, detections,
      other entries and the cursor are unchanged. */
  function SaveNotes(a: App, imageId: int, input: string, reply: Option<Reply>): (r: App)
    ensures !(reply.Some? && reply.value.status == StatusOk) ==> r.review == a.review
    ensures reply.Some? && reply.value.status == StatusOk ==>
              match Review.PositionOf(a.review.images, imageId)
              case None => r.review == a.review
              case Some(p) => r.review == Review.SetNotes(a.review, p, Strings.Strip(input))
    ensures r.review.index == a.review.index && |r.review.images| == |a.review.images|
    ensures forall i :: 0 <= i < |a.review.images| ==> r.review.images[i].id == a.review.images[i].id
    ensures r.nav == a.nav && r.cameraRunning == a.cameraRunning && r.videoRunning == a.videoRunning
  {
    var notes := Strings.Strip(input);
    match reply
    case None => a.(message := CallFailed)
    case Some(rep) =>
      if rep.status != StatusOk then a.(message := ApiError(rep.status))
      else
        match Review.PositionOf(a.review.images, imageId)
        case None => a.(message := NotesUpdated(imageId, notes))
        case Some(p) => a.(review := Review.SetNotes(a.review, p, notes), message := NotesUpdated(imageId, notes))
  }

  /** A user action or a worker event, with the outcome of its I/O. */
  datatype Command =
    | StartCamera(opens: bool)
    | StopCamera
    | CameraTick(read: bool, reply: Option<Reply>)
    | ChooseImage(path: string, reply: Option<Reply>)
    | ChooseVideo(path: string, opens: bool)
    | EndVideo
    | VideoTick(read: bool, reply: Option<Reply>)
    | Capture(path: string, saved: bool, reply: Option<Reply>)
    | OpenReview(reply: Option<Reply>)
    | Prev
    | Next
    | Thumbnail(index: int)
    | Delete(reply: Option<Reply>)
    | SaveNotesCmd(imageId: int, input: string, reply: Option<Reply>)

  /** The mode-entry commands, guarded by "no mode is running". */
  predicate ModeEntry(c: Command) {
    c.StartCamera? || c.ChooseImage? || c.ChooseVideo? || c.OpenReview?
  }

  /** One command, as the window delivers it: a button-bound action runs only
      while its button is enabled (the mode buttons' state is derived from
      the flags and already checked by their handlers); thumbnails exist only
      while the review buttons are on. Saving notes runs the corrected
      handler `SaveNotes`; `SaveNotesAsWrittenInv` shows the handler as
      written keeps `Inv` as well. */
  function Step(a: App, c: Command): (r: App)
    ensures Busy(a) && ModeEntry(c) ==> r == a
    ensures c.Capture? && !a.captureEnabled ==> r == a
    ensures c.Prev? && !a.nav.prev ==> r == a
    ensures c.Next? && !a.nav.next ==> r == a
    ensures (c.Delete? || c.Thumbnail?) && !a.nav.delete ==> r == a
    ensures !(c.StartCamera? || c.StopCamera? || c.CameraTick?) ==> r.cameraRunning == a.cameraRunning
    ensures !(c.ChooseVideo? || c.EndVideo? || c.VideoTick?) ==> r.videoRunning == a.videoRunning
  {
    match c
    case StartCamera(o) => StartLiveCamera(a, o)
    case StopCamera => StopLiveCamera(a)
    case CameraTick(rd, rep) => CameraFrame(a, rd, rep)
    case ChooseImage(p, rep) => SelectImage(a, p, rep)
    case ChooseVideo(p, o) => SelectVideo(a, p, o)
    case EndVideo => StopVideo(a)
    case VideoTick(rd, rep) => VideoFrame(a, rd, rep)
    case Capture(p, sv, rep) => if a.captureEnabled then CaptureImage(a, p, sv, rep) else a
    case OpenReview(rep) => ViewCaptured(a, rep)
    case Prev => if a.nav.prev then ShowPrev(a) else a
    case Next => if a.nav.next then ShowNext(a) else a
    case Thumbnail(i) => if a.nav.delete && 0 <= i < |a.review.images| then SelectThumbnail(a, i) else a
    case Delete(rep) => if a.nav.delete then DeleteImage(a, rep) else a
    case SaveNotesCmd(id, input, rep) => SaveNotes(a, id, input, rep)
  }

  /** What every reachable state satisfies: at most one mode runs, a live
      camera loop implies the camera flag, the review cursor is valid, the
      review buttons are either all off or match the list, and they are all
      off while a mode runs. */
  predicate Inv(a: App) {
    && !(a.cameraRunning && a.videoRunning)
    && (a.cameraLoop ==> a.cameraRunning)
    && Review.Valid(a.review)
    && (a.nav == Review.AllDisabled || a.nav == Review.Flags(a.review))
    && (Busy(a) ==> a.nav == Review.AllDisabled)
  }

  lemma InitInv()
    ensures Inv(Init) && !Busy(Init) && !HasShot(Init)
  {
  }

  /** Every command keeps the invariant. */
  lemma StepInv(a: App, c: Command)
    requires Inv(a)
    ensures Inv(Step(a, c))
  {
    if c.StartCamera? || c.StopCamera? || c.CameraTick? {
      CameraStepInv(a, c);
    } else if c.ChooseImage? || c.ChooseVideo? || c.EndVideo? || c.VideoTick? {
      MediaStepInv(a, c);
    } else if c.Capture? || c.Prev? || c.Next? || c.Thumbnail? {
      NavStepInv(a, c);
    } else {
      RecordStepInv(a, c);
    }
  }

  /** The camera's commands keep the invariant. */
  lemma CameraStepInv(a: App, c: Command)
    requires Inv(a)
    requires c.StartCamera? || c.StopCamera? || c.CameraTick?
    ensures Inv(Step(a, c))
  {
  }

  /** Choosing an image or a video, and the video's commands, keep the
      invariant. */
  lemma MediaStepInv(a: App, c: Command)
    requires Inv(a)
    requires c.ChooseImage? || c.ChooseVideo? || c.EndVideo? || c.VideoTick?
    ensures Inv(Step(a, c))
  {
  }

  /** Capture and moving through the review list keep the invariant. */
  lemma NavStepInv(a: App, c: Command)
    requires Inv(a)
    requires c.Capture? || c.Prev? || c.Next? || c.Thumbnail?
    ensures Inv(Step(a, c))
  {
  }

  /** Loading the list, deleting and saving notes keep the invariant. */
  lemma RecordStepInv(a: App, c: Command)
    requires Inv(a)
    requires c.OpenReview? || c.Delete? || c.SaveNotesCmd?
    ensures Inv(Step(a, c))
  {
    match c
    case OpenReview(rep) =>
      assert Step(a, c) == ViewCaptured(a, rep);
      ViewInv(a, rep);
    case Delete(rep) =>
      assert Step(a, c) == if a.nav.delete then DeleteImage(a, rep) else a;
      DeleteInv(a, rep);
    case SaveNotesCmd(id, input, rep) =>
      assert Step(a, c) == SaveNotes(a, id, input, rep);
      SaveNotesInv(a, id, input, rep);
  }

  /** The corrected notes handler keeps the invariant. */
  lemma SaveNotesInv(a: App, imageId: int, input: string, reply: Option<Reply>)
    requires Inv(a)
    ensures Inv(SaveNotes(a, imageId, input, reply))
  {
  }

  /** Loading the review list keeps the invariant. */
  lemma ViewInv(a: App, reply: Option<Reply>)
    requires Inv(a)
    ensures Inv(ViewCaptured(a, reply))
  {
  }

  /** The notes handler as written keeps the invariant too: it rewrites one
      entry in place and leaves cursor, length and buttons alone. */
  lemma SaveNotesAsWrittenInv(a: App, imageId: int, input: string, reply: Option<Reply>)
    requires Inv(a)
    ensures Inv(SaveNotesAsWritten(a, imageId, input, reply))
  {
  }

  /** Deleting the image under the cursor keeps the invariant. */
  lemma DeleteInv(a: App, reply: Option<Reply>)
    requires Inv(a)
    ensures a.nav.delete ==> Inv(DeleteImage(a, reply))
  {
  }

  /** Mode exclusion: while the camera or a video runs, starting the camera,
      choosing an image or a video, or opening the review list changes
      nothing. */
  lemma ModeEntryBlockedWhileBusy(a: App, c: Command)
    requires Busy(a) && ModeEntry(c)
    ensures Step(a, c) == a
  {
  }

  /** A device or file that does not open leaves both flags clear. */
  lemma OpenFailureStaysIdle(a: App, path: string)
    requires !Busy(a)
    ensures !Busy(StartLiveCamera(a, false))
    ensures !Busy(SelectVideo(a, path, false))
  {
  }

  /** A failed camera read ends the worker but the mode stays busy: further
      ticks do nothing and every mode entry is refused until the camera is
      stopped. */
  lemma CameraReadFailureStaysBusy(a: App, reply: Option<Reply>, c: Command, rd: bool, rep: Option<Reply>)
    requires a.cameraRunning && a.cameraLoop
    ensures var b := CameraFrame(a, false, reply);
            && b.cameraRunning && !b.cameraLoop && b.message == CameraReadFailed
            && CameraFrame(b, rd, rep) == b
            && (ModeEntry(c) ==> Step(b, c) == b)
  {
  }

  /** A rejected or failed frame does not stop the camera or the video: the
      loop goes on and the next good frame is shown. */
  lemma BadFrameKeepsMode(a: App, reply: Option<Reply>)
    requires !ReadDetectReply(reply).Shown?
    ensures a.cameraRunning && a.cameraLoop ==>
              var b := CameraFrame(a, true, reply);
              b.cameraRunning && b.cameraLoop && !b.captureEnabled
    ensures a.videoRunning ==>
              var b := VideoFrame(a, true, reply);
              b.videoRunning && !b.captureEnabled
  {
  }

  /** The first good frame makes capture possible: the button is enabled and
      `capture_image` proceeds to save rather than refusing. */
  lemma GoodFrameEnablesCapture(a: App, data: string, ds: seq<Detection>, path: string, saved: bool, rep: Option<Reply>)
    requires a.cameraRunning && a.cameraLoop && data != []
    ensures var b := CameraFrame(a, true, Some(Reply(StatusOk, Detected(data, ds))));
            && b.captureEnabled && HasShot(b)
            && Step(b, Capture(path, saved, rep)).message != NothingToCapture
  {
  }

  /** Stopping the camera enables capture even when no frame was ever
      detected; `capture_image` then refuses for lack of a result. */
  lemma StopEnablesEmptyCapture(path: string, saved: bool, rep: Option<Reply>, bad: Option<Reply>)
    requires !ReadDetectReply(bad).Shown?
    ensures var a := Step(Step(Step(Init, StartCamera(true)), CameraTick(true, bad)), StopCamera);
            && !Busy(a) && a.captureEnabled && !HasShot(a)
            && Step(a, Capture(path, saved, rep)) == a.(message := NothingToCapture)
  {
  }

  /** Video end of stream returns to idle with capture enabled and the
      stop message shown. */
  lemma VideoEndStops(a: App, reply: Option<Reply>)
    requires Inv(a) && a.videoRunning
    ensures var b := VideoFrame(a, false, reply);
            !Busy(b) && b.captureEnabled && b.message == VideoStopped
  {
  }

  /** With the cursor still on the dialog's image and distinct ids, the
      handler as written and the intended one agree. */
  lemma SaveNotesAgreeWhenCursorStays(a: App, input: string, reply: Option<Reply>)
    requires Review.Valid(a.review) && Review.DistinctIds(a.review.images)
    requires NotesDialog(a).Some?
    ensures SaveNotesAsWritten(a, NotesDialog(a).value, input, reply) == SaveNotes(a, NotesDialog(a).value, input, reply)
  {
    Review.PositionOfDistinct(a.review.images, a.review.index);
    var i := a.review.index;
    assert a.review.images[i].(id := a.review.images[i].id) == a.review.images[i];
  }

  /** Saving the same notes twice in a row leaves the list as saving once. */
  lemma SaveNotesIdempotent(a: App, imageId: int, input: string, reply: Reply)
    requires reply.status == StatusOk
    ensures var b := SaveNotes(a, imageId, input, Some(reply));
            SaveNotes(b, imageId, input, Some(reply)) == b
  {
    var b := SaveNotes(a, imageId, input, Some(reply));
    var p := Review.PositionOf(a.review.images, imageId);
    if p.Some? {
      assert forall i :: 0 <= i < |b.review.images| ==> b.review.images[i].id == a.review.images[i].id;
      assert Review.PositionOf(b.review.images, imageId) == p by {
        PositionOfSameIds(a.review.images, b.review.images, imageId);
      }
      Review.SetNotesIdempotent(a.review, p.value, Strings.Strip(input));
    } else {
      PositionOfSameIds(a.review.images, b.review.images, imageId);
    }
  }

  /** `PositionOf` only looks at ids. */
  lemma PositionOfSameIds(xs: seq<Image>, ys: seq<Image>, id: int)
    requires |xs| == |ys| && forall i :: 0 <= i < |xs| ==> xs[i].id == ys[i].id
    ensures Review.PositionOf(xs, id) == Review.PositionOf(ys, id)
  {
  }
}

=== FILE: Detector.dfy ===
/** The server's two detection endpoints, `POST /detect/image/` and
    `POST /detect/video/`. Image decoding, inference, drawing and base64
    encoding are oracles: their outcomes arrive as parameters.
 */
module Detector {
  import opened Api

  /** The part of an uploaded file the handlers look at before decoding. */
  datatype Upload = Upload(filename: string)

  /** One box as the detector reports it: float corners, class and confidence. */
  datatype RawBox = RawBox(x1: real, y1: real, x2: real, y2: real, cls: real, conf: real)

  /** One element of the detector's results: its class-name table and boxes. */
  datatype Inference = Inference(names: map<int, string>, boxes: seq<RawBox>)

  /** `n` is `x` with its fraction dropped: within one of `x` and never
      further from zero. */
  predicate TowardZero(x: real, n: int) {
    && (0.0 <= x ==> 0 <= n && n as real <= x < n as real + 1.0)
    && (x < 0.0 ==> n <= 0 && n as real - 1.0 < x <= n as real)
  }

  /** Python's `int()` on a float: truncation toward zero. */
  function Trunc(x: real): (n: int)
    ensures TowardZero(x, n)
  {
    if x >= 0.0 then x.Floor else -((-x).Floor)
  }

  /** One detection from one raw box: `int` of each corner, the label looked
      up by `int(cls)`; `None` when the class is not in the table (the
      handler's lookup then raises). */
  function Convert(names: map<int, string>, b: RawBox): (r: Option<Detection>)
    ensures r.Some? <==> Trunc(b.cls) in names
    ensures r.Some? ==> r.value.name == names[Trunc(b.cls)] && r.value.confidence == b.conf
    ensures r.Some? ==> r.value.box == Box(Trunc(b.x1), Trunc(b.y1), Trunc(b.x2), Trunc(b.y2))
    ensures r.Some? ==> r.value.name in names.Values
    ensures r.Some? ==> && TowardZero(b.x1, r.value.box.x1) && TowardZero(b.y1, r.value.box.y1)
                        && TowardZero(b.x2, r.value.box.x2) && TowardZero(b.y2, r.value.box.y2)
  {
    var c := Trunc(b.cls);
    if c in names then
      Some(Detection(names[c], b.conf, Box(Trunc(b.x1), Trunc(b.y1), Trunc(b.x2), Trunc(b.y2))))
    else
      None
  }

  /** Every (class table, box) pair of the results, in the order of the
      handler's two nested loops: result by result, box by box. */
  function Pairs(results: seq<Inference>): (ps: seq<(map<int, string>, RawBox)>)
    ensures |results| > 0 ==> |ps| == |results[0].boxes| + |Pairs(results[1..])|
    ensures |results| > 0 ==> forall i :: 0 <= i < |results[0].boxes| ==> ps[i] == (results[0].names, results[0].boxes[i])
    ensures |results| > 0 ==> ps[|results[0].boxes|..] == Pairs(results[1..])
    ensures |results| == 0 ==> ps == []
  {
    if |results| == 0 then []
    else
      seq(|results[0].boxes|, i requires 0 <= i < |results[0].boxes| => (results[0].names, results[0].boxes[i]))
      + Pairs(results[1..])
  }

  /** The pairs converted in order: the `detections` list the handler
      appends to; `None` as soon as one class is missing from its table. */
  function ConvertAll(ps: seq<(map<int, string>, RawBox)>): (r: Option<seq<Detection>>)
    ensures r.Some? <==> forall k :: 0 <= k < |ps| ==> Convert(ps[k].0, ps[k].1).Some?
    ensures r.Some? ==> |r.value| == |ps|
    ensures r.Some? ==> forall k :: 0 <= k < |ps| ==> r.value[k] == Convert(ps[k].0, ps[k].1).value
  {
    if |ps| == 0 then Some([])
    else
      match Convert(ps[0].0, ps[0].1)
      case None => None
      case Some(d) =>
        match ConvertAll(ps[1..])
        case None => None
        case Some(ds) => Some([d] + ds)
  }

  /** The `detections` list built from all inference results. */
  function Collect(results: seq<Inference>): Option<seq<Detection>> {
    ConvertAll(Pairs(results))
  }

  /** The checks both endpoints make on the request before touching its
      contents: a `file` part must exist and have a non-empty filename. */
  function CheckUpload(files: map<string, Upload>): (r: Option<Reply>)
    ensures "file" !in files ==> r == Some(Reply(StatusBadRequest, Failure(NoFilePart)))
    ensures "file" in files && files["file"].filename == [] ==> r == Some(Reply(StatusBadRequest, Failure(EmptyFilename)))
    ensures "file" in files && files["file"].filename != [] ==> r.None?
    ensures r.None? <==> "file" in files && files["file"].filename != []
    ensures r.Some? ==> r.value.status == StatusBadRequest && r.value.body.Failure?
  {
    if "file" !in files then Some(Reply(StatusBadRequest, Failure(NoFilePart)))
    else if files["file"].filename == [] then Some(Reply(StatusBadRequest, Failure(EmptyFilename)))
    else None
  }

  /** The reply for one decoded frame: inference (`None` when it raises),
      then the detections list and the re-encoded annotated image. */
  function Annotate(inference: Option<seq<Inference>>, encoded: string): (r: Reply)
    ensures r.status == StatusOk <==> inference.Some? && Collect(inference.value).Some?
    ensures r.status == StatusOk ==> r.body == Detected(encoded, Collect(inference.value).value)
    ensures r.status != StatusOk ==> r == InternalError
  {
    if inference.None? then InternalError
    else
      match Collect(inference.value)
      case None => InternalError
      case Some(ds) => Reply(StatusOk, Detected(encoded, ds))
  }

  /** `detect_image`: 400 for a missing file part or empty filename before
      any decoding, 400 when the bytes do not decode to an image, 500 when
      inference raises, otherwise 200 with the annotated image and the
      detections. */
  function DetectImage(files: map<string, Upload>, decodes: bool, inference: Option<seq<Inference>>, encoded: string): (r: Reply)
    ensures CheckUpload(files).Some? ==> r == CheckUpload(files).value
    ensures CheckUpload(files).None? && !decodes ==> r == Reply(StatusBadRequest, Failure(UnreadableImage))
    ensures r.status == StatusOk <==> CheckUpload(files).None? && decodes && inference.Some? && Collect(inference.value).Some?
    ensures r.status == StatusOk ==> r.body == Detected(encoded, Collect(inference.value).value)
    ensures CheckUpload(files).None? && decodes && r.status != StatusOk ==> r == InternalError
  {
    match CheckUpload(files)
    case Some(bad) => bad
    case None =>
      if !decodes then Reply(StatusBadRequest, Failure(UnreadableImage))
      else Annotate(inference, encoded)
  }

  /** What `detect_video` returns, with the files present afterwards. */
  datatype VideoOutcome = VideoOutcome(reply: Reply, disk: set<string>)

  /** `detect_video`: the same upload checks, then the upload is saved under
      the fresh name `temp`, opened, and only its first frame is annotated.
      The temporary file is removed on the 400 paths after saving and on
      success, but not when inference raises: that 500 leaves it behind. */
  function DetectVideo(files: map<string, Upload>, disk: set<string>, temp: string,
                       opens: bool, firstFrame: bool, inference: Option<seq<Inference>>, encoded: string): (o: VideoOutcome)
    ensures CheckUpload(files).Some? ==> o == VideoOutcome(CheckUpload(files).value, disk)
    ensures CheckUpload(files).None? && !opens ==> o.reply == Reply(StatusBadRequest, Failure(VideoNotOpened))
    ensures CheckUpload(files).None? && opens && !firstFrame ==> o.reply == Reply(StatusBadRequest, Failure(FrameNotRead))
    ensures o.reply.status == StatusOk <==> CheckUpload(files).None? && opens && firstFrame && inference.Some? && Collect(inference.value).Some?
    ensures o.reply.status == StatusOk ==> o.reply.body == Detected(encoded, Collect(inference.value).value)
    ensures CheckUpload(files).None? && o.reply.status != StatusInternal ==> o.disk == disk - {temp}
    ensures o.reply.status == StatusInternal ==> temp in o.disk && o.disk == disk + {temp}
  {
    match CheckUpload(files)
    case Some(bad) => VideoOutcome(bad, disk)
    case None =>
      var saved := disk + {temp};
      if !opens then VideoOutcome(Reply(StatusBadRequest, Failure(VideoNotOpened)), saved - {temp})
      else if !firstFrame then VideoOutcome(Reply(StatusBadRequest, Failure(FrameNotRead)), saved - {temp})
      else
        var r := Annotate(inference, encoded);
        if r.status == StatusOk then VideoOutcome(r, saved - {temp}) else VideoOutcome(r, saved)
  }

  /** Nothing after the upload checks can change a rejected request's reply:
      decoding and inference are never consulted. */
  lemma RejectedBeforeDecoding(files: map<string, Upload>, d1: bool, d2: bool,
                               i1: Option<seq<Inference>>, i2: Option<seq<Inference>>, e1: string, e2: string)
    requires "file" !in files || files["file"].filename == []
    ensures DetectImage(files, d1, i1, e1) == DetectImage(files, d2, i2, e2)
    ensures DetectImage(files, d1, i1, e1).status == StatusBadRequest
  {
  }
}

=== FILE: Review.dfy ===
/** The desktop client's review list: `captured_images`, the saved images in
    the order the server listed them, and the cursor `current_image_index`,
    with -1 meaning "no image".
 */
module Review {
  import opened Api

  datatype Session = Session(images: seq<Image>, index: int)

  /** The state before any list has been fetched. */
  const Initial := Session([], -1)

  /** The cursor is -1 exactly when the list is empty, and otherwise points
      at an image. */
  predicate Valid(s: Session) {
    if |s.images| == 0 then s.index == -1 else 0 <= s.index < |s.images|
  }

  /** No two images of the list share an id (a server listing has this). */
  predicate DistinctIds(images: seq<Image>) {
    forall i, j :: 0 <= i < j < |images| ==> images[i].id != images[j].id
  }

  /** Enabled state of the previous, next, delete and update-notes buttons. */
  datatype NavFlags = NavFlags(prev: bool, next: bool, delete: bool, update: bool)

  const AllDisabled := NavFlags(false, false, false, false)

  /** `update_navigation_buttons`. */
  function Flags(s: Session): (f: NavFlags)
    ensures f.prev <==> ShowPrev(s) != s
    ensures f.next <==> ShowNext(s) != s
    ensures Valid(s) ==> (f.delete <==> 0 <= s.index < |s.images|)
    ensures f.update == f.delete
  {
    NavFlags(s.index > 0, s.index < |s.images| - 1, |s.images| > 0, |s.images| > 0)
  }

  /** The list fetched by `view_captured_images`: a non-empty listing
      replaces the list in fetch order and puts the cursor on its first
      image; an empty one leaves the old list and cursor in place. */
  function Load(s: Session, images: seq<Image>): (r: Session)
    ensures |images| > 0 ==> r.images == images && r.index == 0
    ensures |images| == 0 ==> r == s
    ensures Valid(s) ==> Valid(r)
    ensures |images| > 0 ==> Valid(r) && !Flags(r).prev && Flags(r).delete
  {
    if |images| == 0 then s else Session(images, 0)
  }

  /** `show_prev_image`: moves back one image unless already at the first. */
  function ShowPrev(s: Session): (r: Session)
    ensures r.images == s.images
    ensures s.index > 0 ==> r.index == s.index - 1
    ensures s.index <= 0 ==> r == s
    ensures s.index >= 0 ==> r.index >= 0
    ensures Valid(s) ==> Valid(r)
  {
    if s.index > 0 then s.(index := s.index - 1) else s
  }

  /** `show_next_image`: moves forward one image unless already at the last. */
  function ShowNext(s: Session): (r: Session)
    ensures r.images == s.images
    ensures s.index < |s.images| - 1 ==> r.index == s.index + 1
    ensures s.index >= |s.images| - 1 ==> r == s
    ensures s.index < |s.images| ==> r.index < |s.images|
    ensures Valid(s) ==> Valid(r)
  {
    if s.index < |s.images| - 1 then s.(index := s.index + 1) else s
  }

  /** `select_thumbnail`: thumbnails exist only for positions of the list,
      so the index is one of them. */
  function SelectThumbnail(s: Session, i: int): (r: Session)
    requires 0 <= i < |s.images|
    ensures r.images == s.images && r.index == i
    ensures Valid(r)
  {
    s.(index := i)
  }

  /** The list after the server confirmed deleting the image at the cursor:
      exactly that image is gone, the others keep their order, and the
      cursor stays put unless it fell off the end, where it moves to the new
      last image; an emptied list gets the cursor -1. */
  function RemoveCurrent(s: Session): (r: Session)
    requires 0 <= s.index < |s.images|
    ensures r.images == s.images[..s.index] + s.images[s.index + 1..]
    ensures |r.images| == |s.images| - 1
    ensures multiset(r.images) + multiset{s.images[s.index]} == multiset(s.images)
    ensures |r.images| == 0 ==> r.index == -1
    ensures |r.images| > 0 ==> r.index == if s.index < |r.images| then s.index else |r.images| - 1
    ensures Valid(r)
  {
    var rest := s.images[..s.index] + s.images[s.index + 1..];
    assert s.images == s.images[..s.index] + [s.images[s.index]] + s.images[s.index + 1..];
    if |rest| == 0 then Session(rest, -1)
    else if s.index >= |rest| then Session(rest, |rest| - 1)
    else Session(rest, s.index)
  }

  /** The notes of the image at position `i` replaced; nothing else changes. */
  function SetNotes(s: Session, i: int, notes: string): (r: Session)
    requires 0 <= i < |s.images|
    ensures r.index == s.index && |r.images| == |s.images|
    ensures r.images[i] == s.images[i].(notes := Some(notes))
    ensures forall j :: 0 <= j < |s.images| && j != i ==> r.images[j] == s.images[j]
    ensures Valid(s) ==> Valid(r)
    ensures Flags(r) == Flags(s)
  {
    s.(images := s.images[i := s.images[i].(notes := Some(notes))])
  }

  /** The first position holding image `id`, if any. */
  function PositionOf(images: seq<Image>, id: int): (r: Option<int>)
    ensures r.Some? ==> 0 <= r.value < |images| && images[r.value].id == id
    ensures r.Some? ==> forall j :: 0 <= j < r.value ==> images[j].id != id
    ensures r.None? ==> forall j :: 0 <= j < |images| ==> images[j].id != id
  {
    if |images| == 0 then None
    else if images[0].id == id then Some(0)
    else
      match PositionOf(images[1..], id)
      case None => None
      case Some(p) => Some(p + 1)
  }

  /** Next undoes previous and previous undoes next, whenever the first move
      is enabled. */
  lemma PrevNextInverse(s: Session)
    requires Valid(s)
    ensures Flags(s).next ==> ShowPrev(ShowNext(s)) == s
    ensures Flags(s).prev ==> ShowNext(ShowPrev(s)) == s
  {
  }

  /** Writing the same notes twice leaves the list as writing them once. */
  lemma SetNotesIdempotent(s: Session, i: int, notes: string)
    requires 0 <= i < |s.images|
    ensures SetNotes(SetNotes(s, i, notes), i, notes) == SetNotes(s, i, notes)
  {
  }

  /** Deleting the last image of the list moves the cursor one back; deleting
      the only image empties the session. */
  lemma RemoveLast(s: Session)
    requires Valid(s) && |s.images| > 0 && s.index == |s.images| - 1
    ensures |s.images| >= 2 ==> RemoveCurrent(s).index == |s.images| - 2
    ensures |s.images| == 1 ==> RemoveCurrent(s) == Initial
  {
  }

  /** With distinct ids, the position of the image at `i` is `i`. */
  lemma PositionOfDistinct(images: seq<Image>, i: int)
    requires DistinctIds(images) && 0 <= i < |images|
    ensures PositionOf(images, images[i].id) == Some(i)
  {
  }
}

=== FILE: Store.dfy ===
/** The record server's CRUD endpoints over the `images` table:
    `POST /save_image/`, `GET /images/`, `GET`, `PUT` and `DELETE /images/<id>`.
    Each handler is a pure function from the server state and the request to
    the reply and the new server state.
 */
module Store {
  import opened Api

  /** One row of `images(id, file_path, detections, notes)`; the key is kept
      in the table's map. `detections` and `notes` are nullable TEXT. */
  datatype Row = Row(filePath: string, detections: Option<Text>, notes: Option<string>)

  /** The table, AUTOINCREMENT's counter (the id the next insert receives),
      and the files the server can see on disk. */
  datatype Server = Server(rows: map<int, Row>, nextId: int, disk: set<string>)

  /** AUTOINCREMENT's guarantee: ids are positive and below the counter, so
      a new id is larger than every id ever handed out. */
  predicate Valid(s: Server) {
    && 1 <= s.nextId
    && forall id :: id in s.rows ==> 1 <= id < s.nextId
  }

  /** A handler's reply together with the server state it leaves. */
  datatype Outcome = Outcome(reply: Reply, server: Server)

  /** The ids of the rows with `lo <= id < hi`, ascending: the order in which
      a full scan of a rowid table returns them. */
  function TableOrder(rows: map<int, Row>, lo: int, hi: int): seq<int>
    decreases hi - lo
  {
    if lo >= hi then []
    else (if lo in rows then [lo] else []) + TableOrder(rows, lo + 1, hi)
  }

  /** The scan yields ids of present rows within bounds. */
  lemma {:induction false} TableOrderBounds(rows: map<int, Row>, lo: int, hi: int)
    ensures forall i :: 0 <= i < |TableOrder(rows, lo, hi)| ==>
              TableOrder(rows, lo, hi)[i] in rows && lo <= TableOrder(rows, lo, hi)[i] < hi
    decreases hi - lo
  {
    if lo < hi {
      var rest := TableOrder(rows, lo + 1, hi);
      TableOrderBounds(rows, lo + 1, hi);
      if lo in rows {
        var ids := [lo] + rest;
        assert TableOrder(rows, lo, hi) == ids;
        forall i | 1 <= i < |ids|
          ensures ids[i] in rows && lo <= ids[i] < hi
        {
          assert ids[i] == rest[i - 1];
        }
      } else {
        assert TableOrder(rows, lo, hi) == rest;
      }
    }
  }

  /** The scan yields ids in strictly ascending order. */
  lemma {:induction false} TableOrderAscending(rows: map<int, Row>, lo: int, hi: int)
    ensures forall i, j :: 0 <= i < j < |TableOrder(rows, lo, hi)| ==>
              TableOrder(rows, lo, hi)[i] < TableOrder(rows, lo, hi)[j]
    decreases hi - lo
  {
    if lo < hi {
      var rest := TableOrder(rows, lo + 1, hi);
      TableOrderAscending(rows, lo + 1, hi);
      if lo in rows {
        TableOrderBounds(rows, lo + 1, hi);
        var ids := [lo] + rest;
        assert TableOrder(rows, lo, hi) == ids;
        forall i, j | 0 <= i < j < |ids|
          ensures ids[i] < ids[j]
        {
          assert ids[j] == rest[j - 1];
          if i > 0 {
            assert ids[i] == rest[i - 1];
          }
        }
      } else {
        assert TableOrder(rows, lo, hi) == rest;
      }
    }
  }

  /** The scan yields ids of present rows within bounds, strictly ascending. */
  lemma TableOrderSorted(rows: map<int, Row>, lo: int, hi: int)
    ensures forall i :: 0 <= i < |TableOrder(rows, lo, hi)| ==>
              TableOrder(rows, lo, hi)[i] in rows && lo <= TableOrder(rows, lo, hi)[i] < hi
    ensures forall i, j :: 0 <= i < j < |TableOrder(rows, lo, hi)| ==>
              TableOrder(rows, lo, hi)[i] < TableOrder(rows, lo, hi)[j]
  {
    TableOrderBounds(rows, lo, hi);
    TableOrderAscending(rows, lo, hi);
  }

  /** The scan misses no present row within bounds. */
  lemma {:induction false} TableOrderComplete(rows: map<int, Row>, lo: int, hi: int)
    ensures forall k :: k in rows && lo <= k < hi ==> k in TableOrder(rows, lo, hi)
    decreases hi - lo
  {
    if lo < hi {
      TableOrderComplete(rows, lo + 1, hi);
    }
  }

  /** `SELECT * FROM images`: the ids of the rows, ascending. */
  function ScanOrder(s: Server): (ids: seq<int>)
    ensures forall i :: 0 <= i < |ids| ==> ids[i] in s.rows && 1 <= ids[i] < s.nextId
    ensures forall i, j :: 0 <= i < j < |ids| ==> ids[i] < ids[j]
  {
    TableOrderSorted(s.rows, 1, s.nextId);
    TableOrder(s.rows, 1, s.nextId)
  }

  /** A row as the handlers return it, with `detections` decoded; `None`
      when the stored text is not JSON. */
  function View(id: int, row: Row): (r: Option<Image>)
    ensures r.None? <==> DecodeColumn(row.detections).None?
    ensures r.Some? ==> && r.value.id == id && r.value.filePath == row.filePath && r.value.notes == row.notes
                        && Some(r.value.detections) == DecodeColumn(row.detections)
    ensures forall v :: row.detections == Some(Dumps(v)) ==> r == Some(Image(id, row.filePath, v, row.notes))
  {
    match DecodeColumn(row.detections)
    case None => None
    case Some(d) => Some(Image(id, row.filePath, d, row.notes))
  }

  /** The rows `ids` rendered in order; `None` when one does not decode. */
  function Views(rows: map<int, Row>, ids: seq<int>): (r: Option<seq<Image>>)
    requires forall i :: 0 <= i < |ids| ==> ids[i] in rows
    ensures r.Some? <==> forall i :: 0 <= i < |ids| ==> View(ids[i], rows[ids[i]]).Some?
    ensures r.Some? ==> |r.value| == |ids|
    ensures r.Some? ==> forall i :: 0 <= i < |ids| ==> r.value[i] == View(ids[i], rows[ids[i]]).value
  {
    if |ids| == 0 then Some([])
    else
      match View(ids[0], rows[ids[0]])
      case None => None
      case Some(img) =>
        match Views(rows, ids[1..])
        case None => None
        case Some(imgs) => Some([img] + imgs)
  }

  /** The JSON body of `POST /save_image/`: `data.get` of its two fields. */
  datatype SaveBody = SaveBody(filePath: Option<string>, detections: Option<Json>)

  /** `not file_path or not detections`. */
  predicate Incomplete(b: SaveBody) {
    || b.filePath.None? || b.filePath.value == []
    || b.detections.None? || !JsonTruthy(b.detections.value)
  }

  /** `save_image`: a body that is not a JSON object raises (500); a missing
      or empty `file_path` or `detections` is 400; `detections` is bound as
      given, so a list (not a string) makes the insert raise (500).
      Otherwise one row is inserted with the next id and NULL notes. */
  function SaveImage(s: Server, body: Option<SaveBody>): (o: Outcome)
    ensures body.None? ==> o.reply == InternalError
    ensures body.Some? && Incomplete(body.value) ==> o.reply == Reply(StatusBadRequest, Failure(MissingFields))
    ensures body.Some? && !Incomplete(body.value) && !body.value.detections.value.JStr? ==> o.reply == InternalError
    ensures o.reply.status != StatusOk ==> o.server == s
    ensures o.reply.status == StatusOk <==> body.Some? && !Incomplete(body.value) && body.value.detections.value.JStr?
    ensures o.reply.status == StatusOk ==>
              && o.reply.body == SavedId(s.nextId)
              && o.server.rows == s.rows[s.nextId := Row(body.value.filePath.value, Some(body.value.detections.value.text), None)]
              && o.server.nextId == s.nextId + 1
              && o.server.disk == s.disk
    ensures Valid(s) && o.reply.status == StatusOk ==> s.nextId !in s.rows && |o.server.rows| == |s.rows| + 1
    ensures Valid(s) ==> Valid(o.server)
  {
    match body
    case None => Outcome(InternalError, s)
    case Some(b) =>
      if Incomplete(b) then Outcome(Reply(StatusBadRequest, Failure(MissingFields)), s)
      else
        match b.detections.value
        case JStr(t) =>
          var id := s.nextId;
          Outcome(Reply(StatusOk, SavedId(id)),
                  Server(s.rows[id := Row(b.filePath.value, Some(t), None)], id + 1, s.disk))
        case _ => Outcome(InternalError, s)
  }

  /** `get_images`: every row in scan order, `detections` decoded (`[]` for
      NULL or empty); 500 when one stored value is not JSON. Read-only. */
  function GetImages(s: Server): (o: Outcome)
    ensures o.server == s
    ensures o.reply.status == StatusOk || o.reply == InternalError
    ensures o.reply.status == StatusOk <==>
              forall i :: 0 <= i < |ScanOrder(s)| ==> View(ScanOrder(s)[i], s.rows[ScanOrder(s)[i]]).Some?
    ensures o.reply.status == StatusOk ==>
              && o.reply.body.ImageList?
              && |o.reply.body.images| == |ScanOrder(s)|
              && forall i :: 0 <= i < |ScanOrder(s)| ==>
                   o.reply.body.images[i] == View(ScanOrder(s)[i], s.rows[ScanOrder(s)[i]]).value
  {
    match Views(s.rows, ScanOrder(s))
    case None => Outcome(InternalError, s)
    case Some(imgs) => Outcome(Reply(StatusOk, ImageList(imgs)), s)
  }

  /** What a listing says about the table: one image per row, ascending by
      id, each carrying its row's path and notes unchanged and its stored
      `detections` decoded, `[]` where the column is NULL or empty. */
  lemma ListingFaithful(s: Server)
    requires Valid(s)
    requires GetImages(s).reply.status == StatusOk
    ensures var imgs := GetImages(s).reply.body.images;
            && (forall i :: 0 <= i < |imgs| ==>
                  && imgs[i].id in s.rows
                  && imgs[i].filePath == s.rows[imgs[i].id].filePath
                  && Some(imgs[i].detections) == DecodeColumn(s.rows[imgs[i].id].detections)
                  && imgs[i].notes == s.rows[imgs[i].id].notes)
            && (forall i, j :: 0 <= i < j < |imgs| ==> imgs[i].id < imgs[j].id)
            && (forall id :: id in s.rows ==> exists i :: 0 <= i < |imgs| && imgs[i].id == id)
  {
    ListingIds(s);
    ListingComplete(s);
  }

  /** A successful listing holds, at each position, the scan's id there and
      that row's fields. */
  lemma ListingIds(s: Server)
    requires GetImages(s).reply.status == StatusOk
    ensures var imgs := GetImages(s).reply.body.images;
            && |imgs| == |ScanOrder(s)|
            && (forall i :: 0 <= i < |imgs| ==>
                  && imgs[i].id == ScanOrder(s)[i] && imgs[i].id in s.rows
                  && imgs[i].filePath == s.rows[imgs[i].id].filePath
                  && Some(imgs[i].detections) == DecodeColumn(s.rows[imgs[i].id].detections)
                  && imgs[i].notes == s.rows[imgs[i].id].notes)
  {
    var ids := ScanOrder(s);
    var imgs := GetImages(s).reply.body.images;
    forall i | 0 <= i < |imgs|
      ensures imgs[i].id == ids[i]
    {
      assert imgs[i] == View(ids[i], s.rows[ids[i]]).value;
    }
  }

  /** A successful listing of a valid server lists every row. */
  lemma ListingComplete(s: Server)
    requires Valid(s)
    requires GetImages(s).reply.status == StatusOk
    ensures var imgs := GetImages(s).reply.body.images;
            forall id :: id in s.rows ==> exists i :: 0 <= i < |imgs| && imgs[i].id == id
  {
    var ids := ScanOrder(s);
    var imgs := GetImages(s).reply.body.images;
    ListingIds(s);
    TableOrderComplete(s.rows, 1, s.nextId);
    forall id | id in s.rows
      ensures exists i :: 0 <= i < |imgs| && imgs[i].id == id
    {
      assert id in ids;
      var i :| 0 <= i < |ids| && ids[i] == id;
      assert imgs[i].id == id;
    }
  }

  /** `get_image_id`: 404 for an unknown id, otherwise that row's fields
      with `detections` decoded. Read-only. */
  function GetImageById(s: Server, id: int): (o: Outcome)
    ensures o.server == s
    ensures id !in s.rows ==> o.reply == Reply(StatusNotFound, Failure(NotFound))
    ensures id in s.rows && DecodeColumn(s.rows[id].detections).None? ==> o.reply == InternalError
    ensures id in s.rows && DecodeColumn(s.rows[id].detections).Some? ==>
              o.reply == Reply(StatusOk, OneImage(Image(id, s.rows[id].filePath,
                                                         DecodeColumn(s.rows[id].detections).value, s.rows[id].notes)))
  {
    if id !in s.rows then Outcome(Reply(StatusNotFound, Failure(NotFound)), s)
    else
      match View(id, s.rows[id])
      case None => Outcome(InternalError, s)
      case Some(img) => Outcome(Reply(StatusOk, OneImage(img)), s)
  }

  /** Fetching a listed image by its id returns exactly the listed image. */
  lemma GetByIdAgreesWithListing(s: Server, i: int)
    requires GetImages(s).reply.status == StatusOk
    requires 0 <= i < |GetImages(s).reply.body.images|
    ensures var img := GetImages(s).reply.body.images[i];
            GetImageById(s, img.id).reply == Reply(StatusOk, OneImage(img))
  {
    var ids := ScanOrder(s);
    var img := GetImages(s).reply.body.images[i];
    assert img == View(ids[i], s.rows[ids[i]]).value;
  }

  /** `delete_image`: 404 and no change for an unknown id; otherwise the
      row's file is removed if it exists and exactly that row is deleted. */
  function DeleteImage(s: Server, id: int): (o: Outcome)
    ensures id !in s.rows ==> o == Outcome(Reply(StatusNotFound, Failure(NotFound)), s)
    ensures id in s.rows ==>
              && o.reply == Reply(StatusOk, Deleted(id))
              && o.server.rows.Keys == s.rows.Keys - {id}
              && o.server.disk == s.disk - {s.rows[id].filePath}
              && o.server.nextId == s.nextId
    ensures forall k :: k in s.rows && k != id ==> k in o.server.rows && o.server.rows[k] == s.rows[k]
    ensures Valid(s) ==> Valid(o.server)
  {
    if id !in s.rows then Outcome(Reply(StatusNotFound, Failure(NotFound)), s)
    else
      var path := s.rows[id].filePath;
      var disk := if path in s.disk then s.disk - {path} else s.disk;
      Outcome(Reply(StatusOk, Deleted(id)), Server(s.rows - {id}, s.nextId, disk))
  }

  /** The `notes` key of a request body: absent, or present (JSON null or a
      string). */
  datatype NotesField = Absent | Present(notes: Option<string>)

  /** The JSON body of `PUT /images/<id>`. */
  datatype UpdateBody = UpdateBody(notes: NotesField)

  /** `update_image_notes`: 404 for an unknown id, checked before the body
      is read; a body that is not a JSON object raises (500, no change).
      Otherwise notes become the request's value, or stay as they were when
      the key is absent, and the reply carries the updated image. Decoding
      the row's `detections` happens after the commit, so a stored value
      that is not JSON yields 500 with the update already made. */
  function UpdateImageNotes(s: Server, id: int, body: Option<UpdateBody>): (o: Outcome)
    ensures id !in s.rows ==> o == Outcome(Reply(StatusNotFound, Failure(NotFound)), s)
    ensures id in s.rows && body.None? ==> o == Outcome(InternalError, s)
    ensures id in s.rows && body.Some? ==>
              var notes := if body.value.notes.Present? then body.value.notes.notes else s.rows[id].notes;
              && o.server == s.(rows := s.rows[id := s.rows[id].(notes := notes)])
              && (DecodeColumn(s.rows[id].detections).None? ==> o.reply == InternalError)
              && (DecodeColumn(s.rows[id].detections).Some? ==>
                    o.reply == Reply(StatusOk, Updated(Image(id, s.rows[id].filePath,
                                                            DecodeColumn(s.rows[id].detections).value, notes))))
    ensures Valid(s) ==> Valid(o.server)
  {
    if id !in s.rows then Outcome(Reply(StatusNotFound, Failure(NotFound)), s)
    else
      match body
      case None => Outcome(InternalError, s)
      case Some(b) =>
        var row := s.rows[id];
        var notes := match b.notes case Absent => row.notes case Present(n) => n;
        var s' := s.(rows := s.rows[id := row.(notes := notes)]);
        match View(id, row.(notes := notes))
        case None => Outcome(InternalError, s')
        case Some(img) => Outcome(Reply(StatusOk, Updated(img)), s')
  }

  /** Two tables with the same keys in `[lo, hi)` scan alike there. */
  lemma {:induction false} TableOrderSameKeys(m1: map<int, Row>, m2: map<int, Row>, lo: int, hi: int)
    requires forall k :: lo <= k < hi ==> (k in m1 <==> k in m2)
    ensures TableOrder(m1, lo, hi) == TableOrder(m2, lo, hi)
    decreases hi - lo
  {
    if lo < hi {
      TableOrderSameKeys(m1, m2, lo + 1, hi);
    }
  }

  /** Widening the scan by one id at the top appends that id if present. */
  lemma {:induction false} TableOrderExtend(m: map<int, Row>, lo: int, hi: int)
    requires lo <= hi
    ensures TableOrder(m, lo, hi + 1) == TableOrder(m, lo, hi) + (if hi in m then [hi] else [])
    decreases hi - lo
  {
    if lo < hi {
      TableOrderExtend(m, lo + 1, hi);
    }
  }

  /** Deleting the row at scan position `p` removes exactly that position
      from the scan. */
  lemma {:induction false} TableOrderRemove(m: map<int, Row>, lo: int, hi: int, p: int)
    requires 0 <= p < |TableOrder(m, lo, hi)|
    ensures var ids := TableOrder(m, lo, hi);
            TableOrder(m - {ids[p]}, lo, hi) == ids[..p] + ids[p + 1..]
    decreases hi - lo
  {
    var ids := TableOrder(m, lo, hi);
    var k := ids[p];
    var rest := TableOrder(m, lo + 1, hi);
    var m' := m - {k};
    TableOrderSorted(m, lo, hi);
    if lo == k {
      assert ids == [lo] + rest;
      assert ids[0] == lo;
      assert p == 0;
      assert TableOrder(m', lo, hi) == TableOrder(m', lo + 1, hi);
      TableOrderSameKeys(m', m, lo + 1, hi);
      assert ids[..p] + ids[p + 1..] == rest;
    } else {
      TableOrderStep(m, lo, hi, p, k);
    }
  }

  /** The inductive step of `TableOrderRemove` when the deleted id is above
      the scan's lower end. */
  lemma {:induction false} TableOrderStep(m: map<int, Row>, lo: int, hi: int, p: int, k: int)
    requires 0 <= p < |TableOrder(m, lo, hi)| && k == TableOrder(m, lo, hi)[p] && k != lo
    ensures var ids := TableOrder(m, lo, hi);
            TableOrder(m - {k}, lo, hi) == ids[..p] + ids[p + 1..]
    decreases hi - lo, 0
  {
    var ids := TableOrder(m, lo, hi);
    var rest := TableOrder(m, lo + 1, hi);
    var m' := m - {k};
    assert lo < hi;
    assert TableOrder(m', lo, hi) == (if lo in m' then [lo] else []) + TableOrder(m', lo + 1, hi);
    if lo in m {
      assert ids == [lo] + rest;
      assert p > 0;
      assert rest[p - 1] == k;
      TableOrderRemove(m, lo + 1, hi, p - 1);
      assert lo in m';
      assert ids[..p] == [lo] + rest[..p - 1];
      assert ids[p + 1..] == rest[p..];
    } else {
      assert ids == rest;
      assert lo !in m';
      TableOrderRemove(m, lo + 1, hi, p);
    }
  }

  /** A successful insert appends the new row at the end of the scan: rows
      already listed keep their order and the new id comes last. */
  lemma InsertScansLast(s: Server, body: Option<SaveBody>)
    requires Valid(s)
    requires SaveImage(s, body).reply.status == StatusOk
    ensures ScanOrder(SaveImage(s, body).server) == ScanOrder(s) + [s.nextId]
  {
    var s' := SaveImage(s, body).server;
    var n := s.nextId;
    TableOrderExtend(s'.rows, 1, n);
    TableOrderSameKeys(s'.rows, s.rows, 1, n);
  }

  /** A successful delete drops exactly the deleted id from the scan. */
  lemma DeleteScansWithout(s: Server, p: int)
    requires 0 <= p < |ScanOrder(s)|
    ensures var ids := ScanOrder(s);
            ScanOrder(DeleteImage(s, ids[p]).server) == ids[..p] + ids[p + 1..]
  {
    var ids := ScanOrder(s);
    TableOrderRemove(s.rows, 1, s.nextId, p);
    TableOrderSameKeys(DeleteImage(s, ids[p]).server.rows, s.rows - {ids[p]}, 1, s.nextId);
  }
}

=== FILE: StoreVariant.dfy ===
/** The older record server: the same `images` table served by four
    endpoints with slightly different semantics. `save_image` re-encodes
    `detections` with `json.dumps`, `update_image_notes` reads its body
    before the lookup and sets notes to NULL when the key is absent, and
    `delete_image` never touches the disk. It has no detection routes and no
    lookup by id.
 */
module StoreVariant {
  import opened Api
  import opened Store

  /** `save_image`: the same 400 check as the newer server, but `detections`
      is stored as `json.dumps(detections)`, so any truthy JSON value is
      accepted, a list included. */
  function SaveImage(s: Server, body: Option<SaveBody>): (o: Outcome)
    ensures body.Some? && Incomplete(body.value) ==> o.reply == Reply(StatusBadRequest, Failure(MissingFields))
    ensures o.reply.status != StatusOk ==> o.server == s
    ensures o.reply.status == StatusOk <==> body.Some? && !Incomplete(body.value)
    ensures o.reply.status == StatusOk ==>
              && o.reply.body == SavedId(s.nextId)
              && o.server.rows == s.rows[s.nextId := Row(body.value.filePath.value, Some(Dumps(body.value.detections.value)), None)]
              && o.server.nextId == s.nextId + 1
              && o.server.disk == s.disk
    ensures Valid(s) && o.reply.status == StatusOk ==> s.nextId !in s.rows && |o.server.rows| == |s.rows| + 1
    ensures Valid(s) ==> Valid(o.server)
  {
    match body
    case None => Outcome(InternalError, s)
    case Some(b) =>
      if Incomplete(b) then Outcome(Reply(StatusBadRequest, Failure(MissingFields)), s)
      else
        var id := s.nextId;
        Outcome(Reply(StatusOk, SavedId(id)),
                Server(s.rows[id := Row(b.filePath.value, Some(Dumps(b.detections.value)), None)], id + 1, s.disk))
  }

  /** `get_images`: the same scan and decoding as the newer server. */
  function GetImages(s: Server): (o: Outcome)
    ensures o.server == s
    ensures o.reply.status == StatusOk <==>
              forall i :: 0 <= i < |ScanOrder(s)| ==> View(ScanOrder(s)[i], s.rows[ScanOrder(s)[i]]).Some?
    ensures o.reply.status == StatusOk ==>
              && o.reply.body.ImageList?
              && |o.reply.body.images| == |ScanOrder(s)|
              && forall i :: 0 <= i < |ScanOrder(s)| ==>
                   o.reply.body.images[i] == View(ScanOrder(s)[i], s.rows[ScanOrder(s)[i]]).value
    ensures o.reply.status != StatusOk ==> o.reply == InternalError
  {
    Store.GetImages(s)
  }

  /** `update_image_notes`: a body that is not a JSON object raises (500)
      even for an unknown id; then 404 for an unknown id; otherwise notes
      become `data.get("notes")`, NULL when the key is absent. Decoding
      `detections` for the reply happens after the commit. */
  function UpdateImageNotes(s: Server, id: int, body: Option<UpdateBody>): (o: Outcome)
    ensures body.None? ==> o == Outcome(InternalError, s)
    ensures body.Some? && id !in s.rows ==> o == Outcome(Reply(StatusNotFound, Failure(NotFound)), s)
    ensures body.Some? && id in s.rows ==>
              var notes := if body.value.notes.Present? then body.value.notes.notes else None;
              && o.server == s.(rows := s.rows[id := s.rows[id].(notes := notes)])
              && (DecodeColumn(s.rows[id].detections).None? ==> o.reply == InternalError)
              && (DecodeColumn(s.rows[id].detections).Some? ==>
                    o.reply == Reply(StatusOk, Updated(Image(id, s.rows[id].filePath,
                                                            DecodeColumn(s.rows[id].detections).value, notes))))
    ensures Valid(s) ==> Valid(o.server)
  {
    match body
    case None => Outcome(InternalError, s)
    case Some(b) =>
      var notes := match b.notes case Absent => None case Present(n) => n;
      if id !in s.rows then Outcome(Reply(StatusNotFound, Failure(NotFound)), s)
      else
        var row := s.rows[id].(notes := notes);
        var s' := s.(rows := s.rows[id := row]);
        match View(id, row)
        case None => Outcome(InternalError, s')
        case Some(img) => Outcome(Reply(StatusOk, Updated(img)), s')
  }

  /** `delete_image`: 404 and no change for an unknown id; otherwise exactly
      that row is deleted and the files on disk are left alone. */
  function DeleteImage(s: Server, id: int): (o: Outcome)
    ensures id !in s.rows ==> o == Outcome(Reply(StatusNotFound, Failure(NotFound)), s)
    ensures id in s.rows ==>
              && o.reply == Reply(StatusOk, Deleted(id))
              && o.server.rows.Keys == s.rows.Keys - {id}
              && o.server.nextId == s.nextId
    ensures o.server.disk == s.disk
    ensures forall k :: k in s.rows && k != id ==> k in o.server.rows && o.server.rows[k] == s.rows[k]
    ensures Valid(s) ==> Valid(o.server)
  {
    if id !in s.rows then Outcome(Reply(StatusNotFound, Failure(NotFound)), s)
    else Outcome(Reply(StatusOk, Deleted(id)), s.(rows := s.rows - {id}))
  }

  /** Deleting a listed image on this server changes the table exactly as
      the newer server does: the same reply, the same rows, and a listing
      that is the old one without that id. Only the image file differs, as
      this server leaves it on disk. */
  lemma DeleteScansLikeMain(s: Server, p: int)
    requires 0 <= p < |ScanOrder(s)|
    ensures var id := ScanOrder(s)[p];
            && DeleteImage(s, id).reply == Store.DeleteImage(s, id).reply
            && DeleteImage(s, id).server == Store.DeleteImage(s, id).server.(disk := s.disk)
            && ScanOrder(DeleteImage(s, id).server) == ScanOrder(s)[..p] + ScanOrder(s)[p + 1..]
  {
    var id := ScanOrder(s)[p];
    Store.DeleteScansWithout(s, p);
    assert DeleteImage(s, id).server.rows == Store.DeleteImage(s, id).server.rows;
    TableOrderSameKeys(DeleteImage(s, id).server.rows, Store.DeleteImage(s, id).server.rows, 1, s.nextId);
  }

  /** The two servers differ on an update that omits `notes`: the newer one
      keeps the stored notes, this one clears them. */
  lemma AbsentNotesDiffer(s: Server, id: int)
    requires id in s.rows && s.rows[id].notes.Some?
    ensures Store.UpdateImageNotes(s, id, Some(UpdateBody(Absent))).server.rows[id].notes == s.rows[id].notes
    ensures UpdateImageNotes(s, id, Some(UpdateBody(Absent))).server.rows[id].notes == None
  {
  }

  /** The desktop client sends `detections` already encoded as a JSON string.
      The newer server stores that string and lists the detections back; this
      one encodes it a second time and lists back the string, not the list. */
  lemma ClientPayloadEncodedTwice(s: Server, path: string, ds: seq<Detection>)
    requires Valid(s) && path != []
    ensures var body := Some(SaveBody(Some(path), Some(JStr(Dumps(JList(ds))))));
            && Store.SaveImage(s, body).server.rows[s.nextId].detections == Some(Dumps(JList(ds)))
            && DecodeColumn(Store.SaveImage(s, body).server.rows[s.nextId].detections) == Some(JList(ds))
            && SaveImage(s, body).server.rows[s.nextId].detections == Some(Dumps(JStr(Dumps(JList(ds)))))
            && DecodeColumn(SaveImage(s, body).server.rows[s.nextId].detections) == Some(JStr(Dumps(JList(ds))))
  {
  }
}

=== FILE: Strings.dfy ===
/** Python's `str.strip()` with no argument, as the notes dialog applies it. */
module Strings {

  /** `str.isspace` for one character: the ASCII separators and controls
      Python counts as whitespace, plus the Unicode space separators. */
  predicate IsSpace(c: char) {
    || ('\t' <= c <= '\r')
    || ('\U{1C}' <= c <= ' ')
    || ('\U{85}' <= c && (c == '\U{85}' || c == '\U{A0}' || c == '\U{1680}'
                           || ('\U{2000}' <= c <= '\U{200A}')
                           || c == '\U{2028}' || c == '\U{2029}' || c == '\U{202F}'
                           || c == '\U{205F}' || c == '\U{3000}'))
  }

  /** Drops leading whitespace: the result is a suffix of `s` that does not
      start with whitespace, and everything dropped was whitespace. */
  function TrimStart(s: string): (r: string)
    ensures |r| <= |s| && r == s[|s| - |r|..]
    ensures forall i :: 0 <= i < |s| - |r| ==> IsSpace(s[i])
    ensures |r| > 0 ==> !IsSpace(r[0])
  {
    if |s| > 0 && IsSpace(s[0]) then TrimStart(s[1..]) else s
  }

  /** Drops trailing whitespace: the result is a prefix of `s` that does not
      end with whitespace, and everything dropped was whitespace. */
  function TrimEnd(s: string): (r: string)
    ensures |r| <= |s| && r == s[..|r|]
    ensures forall i :: |r| <= i < |s| ==> IsSpace(s[i])
    ensures |r| > 0 ==> !IsSpace(r[|r| - 1])
  {
    if |s| > 0 && IsSpace(s[|s| - 1]) then TrimEnd(s[..|s| - 1]) else s
  }

  /** `s.strip()`: the slice `s[lo..hi]` left once the whitespace on both
      ends is removed; neither end of the result is whitespace. */
  function Strip(s: string): (r: string)
    ensures exists lo, hi :: Trimmed(s, r, lo, hi)
    ensures |r| > 0 ==> !IsSpace(r[0]) && !IsSpace(r[|r| - 1])
  {
    var t := TrimStart(s);
    var r := TrimEnd(t);
    StripSlice(s, t, r);
    r
  }

  /** `r` is `s[lo..hi]` and everything outside that slice is whitespace. */
  ghost predicate Trimmed(s: string, r: string, lo: int, hi: int) {
    && 0 <= lo <= hi <= |s| && r == s[lo..hi]
    && (forall i :: 0 <= i < lo ==> IsSpace(s[i]))
    && (forall i :: hi <= i < |s| ==> IsSpace(s[i]))
  }

  /** A prefix of a suffix of `s` is a slice of `s`; whitespace cut from
      the suffix's end was whitespace in `s`. */
  lemma StripSlice(s: string, t: string, r: string)
    requires |t| <= |s| && t == s[|s| - |t|..]
    requires forall i :: 0 <= i < |s| - |t| ==> IsSpace(s[i])
    requires |r| <= |t| && r == t[..|r|]
    requires forall i :: |r| <= i < |t| ==> IsSpace(t[i])
    ensures Trimmed(s, r, |s| - |t|, |s| - |t| + |r|)
  {
    var lo := |s| - |t|;
    forall i | lo + |r| <= i < |s|
      ensures IsSpace(s[i])
    {
      assert s[i] == t[i - lo];
    }
  }

  /** A string with no whitespace at its start is left alone by `TrimStart`. */
  lemma {:induction false} TrimStartFixed(s: string)
    requires |s| > 0 ==> !IsSpace(s[0])
    ensures TrimStart(s) == s
  {
  }

  /** A string with no whitespace at its end is left alone by `TrimEnd`. */
  lemma {:induction false} TrimEndFixed(s: string)
    requires |s| > 0 ==> !IsSpace(s[|s| - 1])
    ensures TrimEnd(s) == s
  {
  }

  /** Stripping twice is stripping once. */
  lemma {:induction false} StripIdempotent(s: string)
    ensures Strip(Strip(s)) == Strip(s)
  {
    var r := Strip(s);
    TrimStartFixed(r);
    TrimEndFixed(r);
  }

  /** A string with no whitespace at either end is its own strip. */
  lemma {:induction false} StripFixed(s: string)
    requires |s| > 0 ==> !IsSpace(s[0]) && !IsSpace(s[|s| - 1])
    ensures Strip(s) == s
  {
    TrimStartFixed(s);
    TrimEndFixed(s);
  }

  /** Text made only of whitespace strips to the empty string. */
  lemma StripAllSpace(s: string)
    ensures (forall i :: 0 <= i < |s| ==> IsSpace(s[i])) ==> Strip(s) == []
  {
  }
}

=== FILE: Sync.dfy ===
/** The client and the record server together: the review list is meant to
    stay equal to what `GET /images/` would return, after loading, deleting
    and editing notes, and a capture adds exactly one listed image.
 */
module Sync {
  import opened Api
  import Store
  import Review
  import Client
  import Strings

  /** The client's list is the server's current listing. */
  predicate Mirrors(images: seq<Image>, s: Store.Server) {
    Store.GetImages(s).reply == Reply(StatusOk, ImageList(images))
  }

  /** The body `capture_image` posts to `/save_image/`: the saved path and
      the current detections already encoded with `json.dumps`. */
  function CaptureRequest(path: string, ds: seq<Detection>): (b: Store.SaveBody)
    ensures path != [] ==> !Store.Incomplete(b)
    ensures b.detections.Some? && b.detections.value.JStr?
    ensures Loads(b.detections.value.text) == Some(JList(ds))
  {
    Store.SaveBody(Some(path), Some(JStr(Dumps(JList(ds)))))
  }

  /** The body `save_notes` sends: the dialog text, stripped. The notes
      carried are a slice of the text with only whitespace cut away on
      either side, they neither start nor end with whitespace, stripping them
      again changes nothing, and text made only of whitespace sends empty
      notes rather than none. */
  function NotesRequest(input: string): (b: Store.UpdateBody)
    ensures b.notes.Present? && b.notes.notes.Some?
    ensures exists lo, hi :: Strings.Trimmed(input, b.notes.notes.value, lo, hi)
    ensures var n := b.notes.notes.value;
            |n| > 0 ==> !Strings.IsSpace(n[0]) && !Strings.IsSpace(n[|n| - 1])
    ensures Strings.Strip(b.notes.notes.value) == b.notes.notes.value
    ensures (forall i :: 0 <= i < |input| ==> Strings.IsSpace(input[i])) ==> b.notes.notes == Some([])
  {
    Strings.StripIdempotent(input);
    Strings.StripAllSpace(input);
    Store.UpdateBody(Store.Present(Some(Strings.Strip(input))))
  }

  /** A listing never repeats an id. */
  lemma ListingDistinct(s: Store.Server, images: seq<Image>)
    requires Store.Valid(s) && Mirrors(images, s)
    ensures Review.DistinctIds(images)
  {
    Store.ListingFaithful(s);
  }

  /** The listing's image at position `i` is the row with the scan's `i`th id. */
  lemma MirrorAt(s: Store.Server, images: seq<Image>, i: int)
    requires Mirrors(images, s) && 0 <= i < |images|
    ensures |Store.ScanOrder(s)| == |images|
    ensures images[i].id == Store.ScanOrder(s)[i] && images[i].id in s.rows
    ensures Store.View(images[i].id, s.rows[images[i].id]) == Some(images[i])
  {
  }

  /** A list whose every entry is the scanned row's view is the listing. */
  lemma MirrorsByViews(s: Store.Server, images: seq<Image>)
    requires |Store.ScanOrder(s)| == |images|
    requires forall i :: 0 <= i < |images| ==>
               Store.View(Store.ScanOrder(s)[i], s.rows[Store.ScanOrder(s)[i]]) == Some(images[i])
    ensures Mirrors(images, s)
  {
    var o := Store.GetImages(s);
    assert o.reply.status == StatusOk;
    assert o.reply.body.images == images;
  }

  /** Opening the review list on a non-empty server mirrors it, with the
      cursor on the first image and distinct ids. */
  lemma LoadMirrors(a: Client.App, s: Store.Server)
    requires !Client.Busy(a) && Store.Valid(s)
    requires Store.GetImages(s).reply.status == StatusOk && |Store.GetImages(s).reply.body.images| > 0
    ensures var b := Client.ViewCaptured(a, Some(Store.GetImages(s).reply));
            && Mirrors(b.review.images, s)
            && b.review.index == 0
            && Review.DistinctIds(b.review.images)
  {
    var b := Client.ViewCaptured(a, Some(Store.GetImages(s).reply));
    ListingDistinct(s, b.review.images);
  }

  /** Deleting the image under the cursor: the server accepts it, and the
      client's list afterwards mirrors the server again. */
  lemma DeleteMirrors(a: Client.App, s: Store.Server)
    requires Mirrors(a.review.images, s)
    requires 0 <= a.review.index < |a.review.images|
    ensures var o := Store.DeleteImage(s, a.review.images[a.review.index].id);
            && o.reply == Reply(StatusOk, Deleted(a.review.images[a.review.index].id))
            && Mirrors(Client.DeleteImage(a, Some(o.reply)).review.images, o.server)
  {
    var images := a.review.images;
    var p := a.review.index;
    MirrorAt(s, images, p);
    var o := Store.DeleteImage(s, images[p].id);
    var rest := images[..p] + images[p + 1..];
    DeleteLeavesRest(s, images, p);
    assert Client.DeleteImage(a, Some(o.reply)).review.images == Review.RemoveCurrent(a.review).images == rest;
  }

  /** The server side of a delete: the listing without the deleted entry. */
  lemma DeleteLeavesRest(s: Store.Server, images: seq<Image>, p: int)
    requires Mirrors(images, s) && 0 <= p < |images|
    ensures images[p].id in s.rows
    ensures Mirrors(images[..p] + images[p + 1..], Store.DeleteImage(s, images[p].id).server)
  {
    MirrorAt(s, images, p);
    var ids := Store.ScanOrder(s);
    var o := Store.DeleteImage(s, ids[p]);
    Store.DeleteScansWithout(s, p);
    var rest := images[..p] + images[p + 1..];
    var ids' := Store.ScanOrder(o.server);
    forall i | 0 <= i < |rest|
      ensures Store.View(ids'[i], o.server.rows[ids'[i]]) == Some(rest[i])
    {
      var j := if i < p then i else i + 1;
      assert ids'[i] == ids[j] && rest[i] == images[j];
      MirrorAt(s, images, j);
    }
    MirrorsByViews(o.server, rest);
  }

  /** Saving notes for an image of the list, with the fixed handler: the
      server accepts the update, and the client's list afterwards mirrors
      the server again. For an id the server does not have, the reply is
      404 and neither side changes. */
  lemma SaveNotesMirrors(a: Client.App, s: Store.Server, imageId: int, input: string)
    requires Store.Valid(s) && Mirrors(a.review.images, s)
    ensures var o := Store.UpdateImageNotes(s, imageId, Some(NotesRequest(input)));
            && (imageId in s.rows ==> o.reply.status == StatusOk)
            && (imageId !in s.rows ==> o.reply.status == StatusNotFound && o.server == s
                                       && Client.SaveNotes(a, imageId, input, Some(o.reply)).review == a.review)
            && Mirrors(Client.SaveNotes(a, imageId, input, Some(o.reply)).review.images, o.server)
  {
    var body := Store.UpdateBody(Store.Present(Some(Strings.Strip(input))));
    assert NotesRequest(input) == body;
    if imageId in s.rows {
      SaveNotesListed(a, s, imageId, input, body);
    } else {
      SaveNotesUnknown(a, s, imageId, input, body);
    }
  }

  /** `SaveNotesMirrors` for an id the server has. */
  lemma SaveNotesListed(a: Client.App, s: Store.Server, imageId: int, input: string, body: Store.UpdateBody)
    requires Store.Valid(s) && Mirrors(a.review.images, s) && imageId in s.rows
    requires body == Store.UpdateBody(Store.Present(Some(Strings.Strip(input))))
    ensures var o := Store.UpdateImageNotes(s, imageId, Some(body));
            && o.reply.status == StatusOk
            && Mirrors(Client.SaveNotes(a, imageId, input, Some(o.reply)).review.images, o.server)
  {
    var images := a.review.images;
    var o := Store.UpdateImageNotes(s, imageId, Some(body));
    var notes := Strings.Strip(input);
    var p := ListedAt(s, images, imageId);
    UpdateLeavesRest(s, images, p, notes);
    var b := Client.SaveNotes(a, imageId, input, Some(o.reply));
    assert b.review == Review.SetNotes(a.review, p, notes);
  }

  /** `SaveNotesMirrors` for an id the server does not have. */
  lemma SaveNotesUnknown(a: Client.App, s: Store.Server, imageId: int, input: string, body: Store.UpdateBody)
    requires Mirrors(a.review.images, s) && imageId !in s.rows
    ensures var o := Store.UpdateImageNotes(s, imageId, Some(body));
            && o.reply.status == StatusNotFound && o.server == s
            && Client.SaveNotes(a, imageId, input, Some(o.reply)).review == a.review
  {
    var images := a.review.images;
    assert Review.PositionOf(images, imageId).None? by {
      forall i | 0 <= i < |images|
        ensures images[i].id != imageId
      {
        MirrorAt(s, images, i);
      }
    }
  }

  /** Every row of a valid server is listed, at the position `PositionOf`
      finds. */
  lemma ListedAt(s: Store.Server, images: seq<Image>, id: int) returns (p: int)
    requires Store.Valid(s) && Mirrors(images, s) && id in s.rows
    ensures Review.PositionOf(images, id) == Some(p)
    ensures 0 <= p < |images| && images[p].id == id
  {
    var ids := Store.ScanOrder(s);
    Store.TableOrderComplete(s.rows, 1, s.nextId);
    assert id in ids;
    var q :| 0 <= q < |ids| && ids[q] == id;
    MirrorAt(s, images, q);
    p := Review.PositionOf(images, id).value;
  }

  /** The server side of a notes update for the listed image at `p`: the
      listing with that entry's notes replaced. */
  lemma UpdateLeavesRest(s: Store.Server, images: seq<Image>, p: int, notes: string)
    requires Mirrors(images, s) && 0 <= p < |images|
    ensures images[p].id in s.rows
    ensures var o := Store.UpdateImageNotes(s, images[p].id, Some(Store.UpdateBody(Store.Present(Some(notes)))));
            && o.reply.status == StatusOk
            && Mirrors(images[p := images[p].(notes := Some(notes))], o.server)
  {
    MirrorAt(s, images, p);
    var id := images[p].id;
    var ids := Store.ScanOrder(s);
    var o := Store.UpdateImageNotes(s, id, Some(Store.UpdateBody(Store.Present(Some(notes)))));
    Store.TableOrderSameKeys(o.server.rows, s.rows, 1, s.nextId);
    assert Store.ScanOrder(o.server) == ids;
    var updated := images[p := images[p].(notes := Some(notes))];
    forall i | 0 <= i < |updated|
      ensures Store.View(ids[i], o.server.rows[ids[i]]) == Some(updated[i])
    {
      MirrorAt(s, images, i);
    }
    MirrorsByViews(o.server, updated);
  }

  /** A capture stores one row and lists it back last: the previous listing
      followed by an image with the next id, the saved path, the current
      detections and no notes. The client reports that id. */
  lemma CaptureRoundTrip(a: Client.App, s: Store.Server, images: seq<Image>, path: string)
    requires Store.Valid(s) && Mirrors(images, s)
    requires Client.HasShot(a) && path != []
    ensures var ds := a.shot.value.detections;
            var o := Store.SaveImage(s, Some(CaptureRequest(path, ds)));
            && o.reply == Reply(StatusOk, SavedId(s.nextId))
            && Client.CaptureImage(a, path, true, Some(o.reply)).message == Client.SavedAs(s.nextId, path)
            && Mirrors(images + [Image(s.nextId, path, JList(ds), None)], o.server)
  {
    var ds := a.shot.value.detections;
    var body := Some(CaptureRequest(path, ds));
    var o := Store.SaveImage(s, body);
    Store.InsertScansLast(s, body);
    var ids := Store.ScanOrder(s);
    var ids' := Store.ScanOrder(o.server);
    var all := images + [Image(s.nextId, path, JList(ds), None)];
    forall i | 0 <= i < |ids'|
      ensures Store.View(ids'[i], o.server.rows[ids'[i]]) == Some(all[i])
    {
      if i < |ids| {
        MirrorAt(s, images, i);
      }
    }
  }

  /** The handler as written, after the cursor moved off the dialog's image:
      two list entries now carry the dialog's id, so the list mirrors no
      server state at all. */
  lemma SaveNotesAsWrittenBreaksMirror(a: Client.App, q: int, input: string, reply: Reply, s: Store.Server)
    requires Review.DistinctIds(a.review.images)
    requires 0 <= q < |a.review.images| && 0 <= a.review.index < |a.review.images| && a.review.index != q
    requires reply.status == StatusOk && Store.Valid(s)
    ensures var b := Client.SaveNotesAsWritten(a, a.review.images[q].id, input, Some(reply));
            && !Review.DistinctIds(b.review.images)
            && !Mirrors(b.review.images, s)
  {
    var b := Client.SaveNotesAsWritten(a, a.review.images[q].id, input, Some(reply));
    var i := a.review.index;
    assert b.review.images[i].id == b.review.images[q].id;
    if Mirrors(b.review.images, s) {
      ListingDistinct(s, b.review.images);
    }
  }

  /** A concrete case: images 1 and 2 listed, the dialog opened on image 1,
      the user pressed Next (`show_next_image`) to reach image 2, then
      pressed Save with the text "hi". The handler as written gives the
      second entry the first one's id and the notes; the corrected one
      annotates image 1 and leaves image 2 alone. */
  lemma SaveNotesAfterNextExample(img1: Image, img2: Image, reply: Reply)
    requires img1.id == 1 && img2.id == 2 && reply.status == StatusOk
    ensures Client.NotesDialog(ExampleStart(img1, img2)) == Some(1)
    ensures Client.SaveNotesAsWritten(Client.ShowNext(ExampleStart(img1, img2)), 1, "hi", Some(reply)).review.images
              == [img1, img2.(id := 1, notes := Some("hi"))]
    ensures Client.SaveNotes(Client.ShowNext(ExampleStart(img1, img2)), 1, "hi", Some(reply)).review.images
              == [img1.(notes := Some("hi")), img2]
  {
    var moved := Client.ShowNext(ExampleStart(img1, img2));
    assert moved.review == Review.Session([img1, img2], 1);
    HiStripped();
    assert Review.PositionOf(moved.review.images, 1) == Some(0);
  }

  /** The example's notes have no whitespace to strip. */
  lemma HiStripped()
    ensures Strings.Strip("hi") == "hi"
  {
    Strings.StripFixed("hi");
  }

  /** The example's window: two images listed, the cursor on the first. */
  function ExampleStart(img1: Image, img2: Image): Client.App {
    Client.Init.(review := Review.Session([img1, img2], 0),
                 nav := Review.NavFlags(false, true, true, true))
  }


}
